=== FILE: README.md ===
# Shared cookie jar: the cookie store and its sync to the WebView

A Dafny model of the two classes at the heart of the shared cookie jar:

- `DDCookieStore`, an in-memory `java.net.CookieStore`. It files cookies
  in a hash map keyed by the effective URI `http://<host>` of the request
  that set them. It answers `get(uri)` in two passes:
  - Netscape or RFC 2965 domain matching over every bucket;
  - then the request host's own bucket.
  It drops expired cookies as it meets them. A null argument raises an
  error that goes to the error handler if one was given, and is otherwise
  thrown.
- `DDCookieManager`, which copies the cookies of the store, in list order,
  into the embedded browser's cookie manager. For each cookie it builds a URL
  from the secure flag, the domain without its leading dot and the path. It
  also builds a `Set-Cookie` style header string (`name=value; max_age=…;
  path=…; domain=…; secure; httponly`). When every cookie has a domain it
  then flushes. The first cookie without a domain raises a
  NullPointerException when its domain is read: the cookies before it have
  been written, no later cookie is written and there is no flush.

How the model is built:

- Every store operation is a pure function from one `Store` value to the
  next. The source serialises the operations with a lock, so each one is a
  single atomic step.
- The hash map is a `map` from key to cookie list, plus a sequence of keys
  that stands for the map's iteration order.
- The `Index.Valid` invariant says three things:
  - the keys are distinct and agree with the map;
  - no bucket holds two cookies that `HttpCookie.equals` considers equal;
  - every operation keeps it.
- An operation that may throw returns a `Reply`: either `Returned(store,
  value, reported)` or `Thrown(store, error)`.
- The sync is modelled as the trace of `SetCookie(url, header)` and
  `Flush` events it sends to the browser. It also returns a flag saying
  whether it ended normally.

Files:

- `wrappers.dfy` holds `Option`.
- `text.dfy` holds ASCII case folding, `indexOf` and the decimal text of
  a `Long`.
- `cookies.dfy` holds the cookie, its identity and expiry, and the bucket
  key.
- `domain_match.dfy` holds `netscapeDomainMatches`.
- `cookie_lists.dfy` holds the list operations the store uses: filter,
  add if absent, and remove the first equal cookie.
- `cookie_store.dfy` holds the store.
- `header.dfy` holds the header string and a reader for it.
- `sync.dfy` holds the sync.

All source paths below are under `app/src/main/java/com/dgoliy/sharedcookiejar/cookies/`.

## Model

| member | source | states |
|---|---|---|
| CookieStore.NewStore | app/src/main/java/com/dgoliy/sharedcookiejar/cookies/DDCookieStore.kt:18-30 | a new store has an empty index that satisfies the store invariant, and records whether an error handler was given and whether the Android M compatibility rule applies |
| CookieStore.ReportErrorOrThrow | app/src/main/java/com/dgoliy/sharedcookiejar/cookies/DDCookieStore.kt:32-40 | with an error handler the error is reported and the caller's fallback is returned; without one the same error is thrown; the store is untouched either way |
| CookieStore.AddIndex | app/src/main/java/com/dgoliy/sharedcookiejar/cookies/DDCookieStore.kt:294-311 | the key's bucket becomes the old bucket without the cookie equal to the new one, then the new one; an unseen key is appended to the iteration order; other buckets are unchanged; the invariant is kept |
| CookieStore.Add | app/src/main/java/com/dgoliy/sharedcookiejar/cookies/DDCookieStore.kt:45-63 | a null URI or cookie leaves the store alone, and its error, with the message naming the argument, goes to the handler or is thrown when there is none; a cookie with max-age 0 is not stored; any other cookie replaces its equal in the bucket of the URI's effective key, and no other bucket changes |
| CookieStore.AddKeepsOneCopyLast | app/src/main/java/com/dgoliy/sharedcookiejar/cookies/DDCookieStore.kt:301-309 | after an add, the bucket holds the added cookie as its last entry and no other cookie equal to it; the older entries keep their order; a new key's bucket is exactly the one cookie |
| CookieStore.AddTwiceKeepsLatest | app/src/main/java/com/dgoliy/sharedcookiejar/cookies/DDCookieStore.kt:301-305 | adding two equal cookies one after the other leaves only the second in the bucket |
| DomainMatch.NetscapeDomainMatches | app/src/main/java/com/dgoliy/sharedcookiejar/cookies/DDCookieStore.kt:184-227 | a missing domain or host never matches; a match needs the domain to be `.local` or to have a dot that is neither its first nor its last character |
| DomainMatch.EmbeddedDotSearch | app/src/main/java/com/dgoliy/sharedcookiejar/cookies/DDCookieStore.kt:189-196 | the two-step search (skip a leading dot, search again) finds no usable dot exactly when the domain has no embedded dot |
| DomainMatch.NetscapeDomainMatchesCases | app/src/main/java/com/dgoliy/sharedcookiejar/cookies/DDCookieStore.kt:188-226 | the full decision table: no embedded dot and not `.local` refuses; `.local` with a dotless host accepts; otherwise equal length compares ignoring case, a longer host compares its suffix (refused under the M rule for a domain without a leading dot), and a host one shorter must equal the domain minus its leading dot |
| DomainMatch.MCompatibilityOnlyRefuses | app/src/main/java/com/dgoliy/sharedcookiejar/cookies/DDCookieStore.kt:209-220 | turning on the Android M compatibility rule can only turn matches into refusals |
| DomainMatch.NetscapeIgnoresHostCase | app/src/main/java/com/dgoliy/sharedcookiejar/cookies/DDCookieStore.kt:198-224 | the answer is the same for a host and its lower-case form |
| DomainMatch.BareDomainCoversSubdomainExample | app/src/main/java/com/dgoliy/sharedcookiejar/cookies/DDCookieStore.kt:212-219 | domain `example.com` matches host `www.example.com` without the M rule and not with it; `.example.com` matches with it |
| CookieStore.DomainPassEffect | app/src/main/java/com/dgoliy/sharedcookiejar/cookies/DDCookieStore.kt:229-259 | the first pass collects, without repeats and in bucket order, every live cookie that domain-matches the host, and removes from every bucket exactly its expired cookies that match |
| CookieStore.PassOneFacts | app/src/main/java/com/dgoliy/sharedcookiejar/cookies/DDCookieStore.kt:229-259 | the first pass's list has no repeats and only live matching stored cookies, and it has an equal cookie for every live matching stored cookie |
| CookieStore.PassTwoFacts | app/src/main/java/com/dgoliy/sharedcookiejar/cookies/DDCookieStore.kt:265-291 | the second pass over the request's own bucket adds an equal cookie for each live cookie there, keeps everything the first pass found, and adds nothing expired |
| CookieStore.GetFrom | app/src/main/java/com/dgoliy/sharedcookiejar/cookies/DDCookieStore.kt:78-88 | the two passes return no repeats and no expired cookie; every cookie returned either matches the host or sits in the request's bucket, and every live cookie of either kind is returned; the request's bucket loses all its expired cookies, other buckets lose their expired matching ones, and the invariant is kept |
| CookieStore.Get | app/src/main/java/com/dgoliy/sharedcookiejar/cookies/DDCookieStore.kt:72-89 | a null URI leaves the store alone, and its error goes to the handler, which gets an empty list, or is thrown; a URI without a host fails the not-null check on `uri.host` and throws past the handler, leaving the store alone; otherwise the result and the evictions are those of the two passes for the URI's host and effective key |
| CookieStore.SweepAllEffect | app/src/main/java/com/dgoliy/sharedcookiejar/cookies/DDCookieStore.kt:98-108 | the loop over all buckets leaves each bucket with only its live cookies and collects them in bucket order without repeats |
| CookieStore.GetCookies | app/src/main/java/com/dgoliy/sharedcookiejar/cookies/DDCookieStore.kt:94-114 | every bucket loses exactly its expired cookies, and the keys stay; the list has no repeats, only live stored cookies, and an equal cookie for every live stored cookie |
| CookieStore.GetCookiesLater | app/src/main/java/com/dgoliy/sharedcookiejar/cookies/DDCookieStore.kt:94-114 | reading the cookies at one moment and again at a later one gives the store and the list that one read at the later moment gives |
| CookieStore.GetCookiesIdempotent | app/src/main/java/com/dgoliy/sharedcookiejar/cookies/DDCookieStore.kt:94-114 | reading the cookies twice at the same moment gives the same list, and the second read leaves the store as the first left it |
| CookieStore.GetURIs | app/src/main/java/com/dgoliy/sharedcookiejar/cookies/DDCookieStore.kt:120-129 | the keys of the map, each once, including keys whose bucket has become empty |
| CookieStore.RemoveIndex | app/src/main/java/com/dgoliy/sharedcookiejar/cookies/DDCookieStore.kt:144-155 | with no bucket for the key nothing changes and the answer is false; otherwise the answer is whether the bucket held an equal cookie, which is removed, so the bucket shrinks by one exactly then |
| CookieStore.Remove | app/src/main/java/com/dgoliy/sharedcookiejar/cookies/DDCookieStore.kt:134-156 | a null URI or cookie leaves the store alone, and its error goes to the handler, which returns true, or is thrown; otherwise the removal happens under the URI's effective key and no other bucket changes |
| CookieStore.RemoveAll | app/src/main/java/com/dgoliy/sharedcookiejar/cookies/DDCookieStore.kt:161-171 | the answer is whether the map had any key, even one with an empty bucket; afterwards the map is empty |
| CookieStore.RemoveAllEmptiesViews | app/src/main/java/com/dgoliy/sharedcookiejar/cookies/DDCookieStore.kt:161-171 | after removeAll, getURIs and getCookies both return empty lists |
| CookieStore.AddedCookieIsListed | app/src/main/java/com/dgoliy/sharedcookiejar/cookies/DDCookieStore.kt:45-114 | a live cookie just added shows up in getCookies |
| CookieStore.AddedCookieIsFound | app/src/main/java/com/dgoliy/sharedcookiejar/cookies/DDCookieStore.kt:45-89 | a live cookie just added under a URI that has a host is returned by get for that URI, whatever its domain |
| CookieStore.RemoveUndoesAdd | app/src/main/java/com/dgoliy/sharedcookiejar/cookies/DDCookieStore.kt:134-156 | removing a cookie just added under the same URI returns true, and the bucket is what it was before the add minus any cookie equal to it |
| Cookies.ExpiryMoment | app/src/main/java/com/dgoliy/sharedcookiejar/cookies/DDCookieStore.kt:102-103 | `hasExpired` with a positive max-age holds once max-age plus one whole second has elapsed since creation, because the elapsed time is truncated to whole seconds; max-age 0 is always expired and a negative one never is |
| Cookies.ExpiryMonotone | app/src/main/java/com/dgoliy/sharedcookiejar/cookies/DDCookieStore.kt:102-103 | a cookie expired at one moment is expired at every later moment |
| Cookies.EffectiveKey | app/src/main/java/com/dgoliy/sharedcookiejar/cookies/DDCookieStore.kt:317-329 | a URI with a host is keyed by that host, up to case; a URI without one makes the URI constructor fail and is its own key, kept as `URI.equals` compares it: scheme up to case, then authority, path, query and fragment |
| Cookies.EffectiveKeyIsHostOnly | app/src/main/java/com/dgoliy/sharedcookiejar/cookies/DDCookieStore.kt:317-329 | two URIs with hosts share a bucket exactly when the hosts are equal ignoring case, whatever their scheme, port, path, query or fragment; two URIs without hosts share one exactly when their schemes are equal ignoring case and their authorities, paths, queries and fragments are equal |
| CookieStore.RemoveWithoutHostIgnoresSchemeCase | app/src/main/java/com/dgoliy/sharedcookiejar/cookies/DDCookieStore.kt:326-327 | a cookie added under a URI without a host is removed, answering true, under the same URI with its scheme in lower case |
| Text.IndexOf | app/src/main/java/com/dgoliy/sharedcookiejar/cookies/DDCookieStore.kt:190-192 | the first position at or after the start holding the character, or -1 exactly when there is none |
| Text.LongToStringRoundTrip | app/src/main/java/com/dgoliy/sharedcookiejar/cookies/DDCookieManager.kt:61-62 | the decimal text a string template makes of the max-age reads back as the same number |
| Header.AdjustedDomain | app/src/main/java/com/dgoliy/sharedcookiejar/cookies/DDCookieManager.kt:90-97 | a domain with a leading dot loses exactly that dot; any other domain is returned as it is |
| Header.AdjustedDomainRemovesOneDot | app/src/main/java/com/dgoliy/sharedcookiejar/cookies/DDCookieManager.kt:90-97 | adjusting undoes one added dot but is not idempotent: `..a` becomes `.a`, not `a` |
| Header.SegmentsFromOrdered | app/src/main/java/com/dgoliy/sharedcookiejar/cookies/DDCookieManager.kt:61-87 | the segments from a given position on come in strictly increasing order, and a segment is present exactly when the cookie asks for it |
| Header.HeaderAttributesSpec | app/src/main/java/com/dgoliy/sharedcookiejar/cookies/DDCookieManager.kt:61-87 | the header carries max-age exactly when it is not -1, path and domain exactly when present (the domain adjusted), secure exactly when set, and httponly exactly when set on a platform that supports it; each at most once, in that fixed order |
| Header.HeaderStringSpec | app/src/main/java/com/dgoliy/sharedcookiejar/cookies/DDCookieManager.kt:60-88 | the header is `name=value` followed by exactly those segments, each written as `; ` and its text; a null value is written as `null` |
| Header.HeaderRoundTrip | app/src/main/java/com/dgoliy/sharedcookiejar/cookies/DDCookieManager.kt:60-88 | when the name has no `=` and the value, path and domain have no `;`, reading the header back gives the name, the value as written and exactly the cookie's segments, so the header is unambiguous |
| Header.HeaderAttributesExample | app/src/main/java/com/dgoliy/sharedcookiejar/cookies/DDCookieManager.kt:61-85 | a secure httponly session cookie for `.a.com` at `/`, on a platform without httponly support, gets path, domain `a.com` and secure, and no max-age or httponly |
| Header.NullValueHeaderExample | app/src/main/java/com/dgoliy/sharedcookiejar/cookies/DDCookieManager.kt:87 | a cookie whose value is null is written as `n=null`, as the string template prints a null value |
| Sync.HostUrl | app/src/main/java/com/dgoliy/sharedcookiejar/cookies/DDCookieManager.kt:52 | a cookie has a URL exactly when it has a domain; without a domain, reading the adjusted domain fails |
| Sync.HostUrlShape | app/src/main/java/com/dgoliy/sharedcookiejar/cookies/DDCookieManager.kt:47-52 | the URL starts with `https://` exactly when the cookie is secure and otherwise with `http://`, followed by the adjusted domain and the path |
| Sync.HostUrlExample | app/src/main/java/com/dgoliy/sharedcookiejar/cookies/DDCookieManager.kt:52 | a secure cookie for `.a.com` at `/` is set for `https://a.com/`; a plain one without a path for `http://a.comnull` |
| Sync.Reached | app/src/main/java/com/dgoliy/sharedcookiejar/cookies/DDCookieManager.kt:46-55 | the loop gets through a prefix of the cookies that all have a domain, and stops only at a cookie without one |
| Sync.WriteAllSpec | app/src/main/java/com/dgoliy/sharedcookiejar/cookies/DDCookieManager.kt:46-55 | the loop runs to the end exactly when every cookie has a domain; its events are the cookies' writes in list order; when it stops early, it stops at a cookie without a domain |
| Sync.TraceOfSpec | app/src/main/java/com/dgoliy/sharedcookiejar/cookies/DDCookieManager.kt:46-57 | the flush is sent exactly when the loop ran to the end, and then it is the last event; otherwise no flush is sent and the loop stopped at the first cookie without a domain |
| Sync.SyncCookiesToWebkit | app/src/main/java/com/dgoliy/sharedcookiejar/cookies/DDCookieManager.kt:44-58 | the cookie list is read twice, for the log line and then for the loop at a later or equal moment; the store after the sync is the store after one getCookies at the loop's moment |
| Sync.SyncTrace | app/src/main/java/com/dgoliy/sharedcookiejar/cookies/DDCookieManager.kt:44-58 | the sync writes the cookies live at the loop's moment in list order and then flushes, exactly when every one of them has a domain; otherwise it stops at exactly the first cookie without a domain and never flushes |
| Sync.SyncWritesEveryLiveCookie | app/src/main/java/com/dgoliy/sharedcookiejar/cookies/DDCookieManager.kt:44-58 | after a sync that ended normally, each stored cookie live at the loop's moment has an equal cookie written to the browser before the flush |
| Sync.SyncTwiceRepeats | app/src/main/java/com/dgoliy/sharedcookiejar/cookies/DDCookieManager.kt:44-58 | a second sync whose two reads both happen at the moment of the first sync's loop sends the same events and leaves the store as it is |

## Left out

- Locking. The `ReentrantLock` that serialises the store's operations is not modelled. Each operation is one atomic step, and concurrency is out of scope.
- The embedded browser's cookie manager. `setCookie` and `flush` become trace events. `setAcceptCookie(true)` in the constructor, the singleton `init`, and `CookieHandler.setDefault` are not modelled.
- Platform version checks. `Build.VERSION.SDK_INT <= 23` and `>= 24` become the booleans `applyMCompatibility` and `httpOnlySupported`.
- Logging. `DDLog` calls have no effect on the model.
- The `Throwable` handed to the error handler is a `NullPointer` value carrying its message. The handler's own behaviour is not modelled: the reply records that the error was reported.
- `HttpCookie.domainMatches`, the RFC 2965 match used for version-1 cookies, is a function parameter of `get`. Its body belongs to the JDK and is not part of this model.
- The clock is a parameter. `get` and `getCookies` take the current time, and the sync takes the two moments at which it reads the list, the second no earlier than the first.
- `HttpCookie` is mutable and shared by reference: `add` stores the caller's object, and `get` and `getCookies` hand the stored objects back out, so a caller that changes a returned cookie changes the store in place. The model takes each cookie as a value at the moment it is added and assumes stored cookies are never changed afterwards. A change of that kind could leave two equal cookies in one bucket or expire a stored cookie; neither is modelled.
- `HttpCookie.equals` and `hasExpired` are written out as the JDK defines them:
  - `equals` compares the name and the domain ignoring case, and the path exactly;
  - `hasExpired` takes the current time in milliseconds as a parameter instead of reading the clock.
  Case folding is ASCII only.
- `java.net.URI` is reduced to its components: scheme, authority, host, port, path, query and fragment. The key of a URI with a host is the lower-cased host. The key of a URI without a host is that URI, compared as `URI.equals` compares it.
- Cookies.EffectiveKey: does not model two refinements of `URI.equals` for URIs without a host. Percent-escapes are not compared ignoring the case of their hex digits. An opaque URI such as `mailto:a@b` is not compared by its scheme-specific part; the model compares its path field instead. Host names that the URI constructor rejects for other reasons are not modelled either.
- The map's iteration order is unspecified in Java. It is modelled as first-insertion order of the keys, and the list orders the model computes follow from it.
- `getURIs`: its doc comment promises only URIs that hold at least one cookie, but the code returns every key of the map, including keys whose bucket has emptied. The model follows the code.
- The URIs that `getURIs` returns are modelled as the keys. Those are the lower-cased host rather than the host as first written.
- `Long` is an unbounded integer. No arithmetic in the core can overflow except `now - whenCreated` inside the JDK's `hasExpired`, which is modelled without wrap-around.
- CookieStore.Get: for a URI without a host the model throws a NullPointerException with the text `getHost(...) must not be null`. The JVM IR backend writes that text, and it is the default backend from Kotlin 1.5 on. The older JVM backend writes `uri.host must not be null` instead. Compilers before Kotlin 1.4 throw an IllegalStateException at that point, not a NullPointerException. The build's compiler version is not part of this model.
- Sync.SyncTrace: the NullPointerException that escapes the sync for a cookie without a domain becomes `completed == false`; its message is not modelled.
- CookieStore.Get: the contract states the contents of the returned list (no repeats, and which cookies are in it), not the order, which depends on the map's iteration order. The function itself computes that order.
- CookieStore.GetCookies: the contract states the contents of the returned list, not its order, for the same reason.
- The reader of header strings (`ParseHeader`) is not part of the source. It exists to show that the header the source writes is unambiguous.
- The remaining source files are the app, network and WebView screens, the old proxy class and the logger. They use the store and the manager but are not part of this model.

=== FILE: cookie_lists.dfy ===
/** Cookie lists as java.util.List treats them in the store: membership and
    removal go through cookie equality (`Same`), not structural equality. */
module CookieLists {

  import opened Cookies

  /** List.contains(c). */
  predicate SameIn(c: Cookie, lst: seq<Cookie>)
  {
    exists i :: 0 <= i < |lst| && Same(lst[i], c)
  }

  /** No two entries of the list are equal as cookies. */
  predicate Distinct(lst: seq<Cookie>)
  {
    forall i, j :: 0 <= i < j < |lst| ==> !Same(lst[i], lst[j])
  }

  function Filter(s: seq<Cookie>, p: Cookie -> bool): (r: seq<Cookie>)
    ensures |r| <= |s|
    ensures forall x :: x in r <==> x in s && p(x)
  {
    if s == [] then [] else (if p(s[0]) then [s[0]] else []) + Filter(s[1..], p)
  }

  function Not(p: Cookie -> bool): Cookie -> bool
  {
    x => !p(x)
  }

  function NotSame(c: Cookie): Cookie -> bool
  {
    x => !Same(x, c)
  }

  function NotSameAsAny(rem: seq<Cookie>): Cookie -> bool
  {
    x => !SameIn(x, rem)
  }

  /** The "don't add twice" step: append `c` unless an equal cookie is there. */
  function AddIfAbsent(acc: seq<Cookie>, c: Cookie): seq<Cookie>
  {
    if SameIn(c, acc) then acc else acc + [c]
  }

  /** AddIfAbsent applied to every element of `xs` in order. The result
      extends `acc`, takes its new entries from `xs`, holds an equal cookie
      for each element of `xs`, and never holds two equal cookies. */
  function AppendNew(acc: seq<Cookie>, xs: seq<Cookie>): (r: seq<Cookie>)
    ensures |acc| <= |r| && r[..|acc|] == acc
    ensures forall x :: x in r ==> x in acc || x in xs
    ensures forall x :: x in xs ==> SameIn(x, r)
    ensures Distinct(acc) ==> Distinct(r)
    decreases |xs|
  {
    if xs == [] then acc
    else
      var acc' := AddIfAbsent(acc, xs[0]);
      assert SameIn(xs[0], acc') by {
        if !SameIn(xs[0], acc) { assert acc'[|acc|] == xs[0]; }
      }
      assert Distinct(acc) ==> Distinct(acc');
      var r := AppendNew(acc', xs[1..]);
      assert r[..|acc|] == acc' [..|acc|];
      assert forall x :: x in xs ==> x == xs[0] || x in xs[1..];
      assert forall x :: SameIn(x, acc') ==> SameIn(x, r) by {
        forall x | SameIn(x, acc') ensures SameIn(x, r) {
          var i :| 0 <= i < |acc'| && Same(acc'[i], x);
          assert r[i] == acc'[i];
        }
      }
      r
  }

  /** Every cookie that has an equal in `acc` still has one after more
      cookies are appended. */
  lemma AppendNewKeepsSameIn(acc: seq<Cookie>, xs: seq<Cookie>)
    ensures forall c :: SameIn(c, acc) ==> SameIn(c, AppendNew(acc, xs))
  {
    var r := AppendNew(acc, xs);
    forall c | SameIn(c, acc) ensures SameIn(c, r) {
      var j :| 0 <= j < |acc| && Same(acc[j], c);
      assert r[j] == acc[j];
    }
  }

  lemma {:induction false} AppendNewConcat(acc: seq<Cookie>, xs: seq<Cookie>, ys: seq<Cookie>)
    ensures AppendNew(acc, xs + ys) == AppendNew(AppendNew(acc, xs), ys)
    decreases |xs|
  {
    if xs == [] {
      assert xs + ys == ys;
    } else {
      assert (xs + ys)[0] == xs[0];
      assert (xs + ys)[1..] == xs[1..] + ys;
      AppendNewConcat(AddIfAbsent(acc, xs[0]), xs[1..], ys);
    }
  }

  /** List.remove(c): drops the first entry equal to `c`, if there is one. */
  function RemoveFirst(lst: seq<Cookie>, c: Cookie): (r: seq<Cookie>)
    ensures !SameIn(c, lst) ==> r == lst
    ensures SameIn(c, lst) ==> |r| == |lst| - 1
    ensures forall x :: x in r ==> x in lst
  {
    if lst == [] then []
    else if Same(lst[0], c) then lst[1..]
    else
      assert SameIn(c, lst) ==> SameIn(c, lst[1..]) by {
        if SameIn(c, lst) {
          var i :| 0 <= i < |lst| && Same(lst[i], c);
          assert lst[1..][i - 1] == lst[i];
        }
      }
      assert !SameIn(c, lst) ==> !SameIn(c, lst[1..]) by {
        if SameIn(c, lst[1..]) {
          var i :| 0 <= i < |lst[1..]| && Same(lst[1..][i], c);
          assert lst[i + 1] == lst[1..][i];
        }
      }
      [lst[0]] + RemoveFirst(lst[1..], c)
  }

  /** Removing each element of `rem` in turn, as the source clears its
      to-be-removed list. */
  function RemoveEach(lst: seq<Cookie>, rem: seq<Cookie>): seq<Cookie>
    decreases |rem|
  {
    if rem == [] then lst else RemoveEach(RemoveFirst(lst, rem[0]), rem[1..])
  }

  lemma DistinctTail(lst: seq<Cookie>)
    requires |lst| > 0 && Distinct(lst)
    ensures Distinct(lst[1..]) && !SameIn(lst[0], lst[1..])
  {
    forall i | 0 <= i < |lst[1..]| ensures !Same(lst[1..][i], lst[0]) {
      assert lst[1..][i] == lst[i + 1];
    }
  }

  lemma DistinctCons(x: Cookie, t: seq<Cookie>)
    requires Distinct(t) && !SameIn(x, t)
    ensures Distinct([x] + t)
  {
    var s := [x] + t;
    forall i, j | 0 <= i < j < |s| ensures !Same(s[i], s[j]) {
      assert s[j] == t[j - 1];
      if i > 0 { assert s[i] == t[i - 1]; }
    }
  }

  /** In a list without duplicates, equal cookies are the same entry. */
  lemma DistinctEqualIsIdentical(lst: seq<Cookie>, x: Cookie, y: Cookie)
    requires Distinct(lst) && x in lst && y in lst && Same(x, y)
    ensures x == y
  {
    var i :| 0 <= i < |lst| && lst[i] == x;
    var j :| 0 <= j < |lst| && lst[j] == y;
  }

  lemma {:induction false} FilterPreservesDistinct(s: seq<Cookie>, p: Cookie -> bool)
    requires Distinct(s)
    ensures Distinct(Filter(s, p))
    decreases |s|
  {
    if s != [] {
      DistinctTail(s);
      FilterPreservesDistinct(s[1..], p);
      var t := Filter(s[1..], p);
      if p(s[0]) {
        forall i | 0 <= i < |t| ensures !Same(t[i], s[0]) {
          assert t[i] in s[1..];
        }
        DistinctCons(s[0], t);
      }
    }
  }

  lemma {:induction false} FilterKeepsAll(s: seq<Cookie>, p: Cookie -> bool)
    requires forall x :: x in s ==> p(x)
    ensures Filter(s, p) == s
    decreases |s|
  {
    if s != [] {
      FilterKeepsAll(s[1..], p);
    }
  }

  lemma {:induction false} FilterFilter(s: seq<Cookie>, p: Cookie -> bool, q: Cookie -> bool, pq: Cookie -> bool)
    requires forall x :: x in s ==> pq(x) == (p(x) && q(x))
    ensures Filter(Filter(s, p), q) == Filter(s, pq)
    decreases |s|
  {
    if s != [] {
      FilterFilter(s[1..], p, q, pq);
      var t := Filter(s[1..], p);
      if p(s[0]) {
        assert Filter(s, p) == [s[0]] + t;
        assert ([s[0]] + t)[1..] == t;
      } else {
        assert Filter(s, p) == t;
      }
    }
  }

  lemma {:induction false} FilterCongruent(s: seq<Cookie>, p: Cookie -> bool, q: Cookie -> bool)
    requires forall x :: x in s ==> p(x) == q(x)
    ensures Filter(s, p) == Filter(s, q)
    decreases |s|
  {
    if s != [] {
      FilterCongruent(s[1..], p, q);
    }
  }

  lemma FilterConcat(a: seq<Cookie>, b: seq<Cookie>, p: Cookie -> bool)
    ensures Filter(a + b, p) == Filter(a, p) + Filter(b, p)
    decreases |a|
  {
    if a != [] {
      assert (a + b)[0] == a[0];
      assert (a + b)[1..] == a[1..] + b;
      FilterConcat(a[1..], b, p);
    } else {
      assert a + b == b;
    }
  }

  /** In a list without duplicates, removing `c` removes every entry equal to it. */
  lemma {:induction false} RemoveFirstDistinct(lst: seq<Cookie>, c: Cookie)
    requires Distinct(lst)
    ensures RemoveFirst(lst, c) == Filter(lst, NotSame(c))
    decreases |lst|
  {
    if lst != [] {
      DistinctTail(lst);
      var t := lst[1..];
      if Same(lst[0], c) {
        forall x | x in t ensures NotSame(c)(x) {
          var k :| 0 <= k < |t| && t[k] == x;
          assert !Same(t[k], lst[0]);
        }
        FilterKeepsAll(t, NotSame(c));
      } else {
        RemoveFirstDistinct(t, c);
      }
    }
  }

  lemma SameInCons(x: Cookie, rem: seq<Cookie>)
    requires |rem| > 0
    ensures SameIn(x, rem) <==> Same(rem[0], x) || SameIn(x, rem[1..])
  {
    if SameIn(x, rem[1..]) {
      var i :| 0 <= i < |rem[1..]| && Same(rem[1..][i], x);
      assert rem[i + 1] == rem[1..][i];
    }
    if SameIn(x, rem) && !Same(rem[0], x) {
      var i :| 0 <= i < |rem| && Same(rem[i], x);
      assert rem[1..][i - 1] == rem[i];
    }
  }

  /** In a list without duplicates, removing each element of `rem` in turn
      removes exactly the entries equal to some element of `rem`. */
  lemma {:induction false} RemoveEachDistinct(lst: seq<Cookie>, rem: seq<Cookie>)
    requires Distinct(lst)
    ensures RemoveEach(lst, rem) == Filter(lst, NotSameAsAny(rem))
    decreases |rem|
  {
    if rem == [] {
      forall x | x in lst ensures NotSameAsAny(rem)(x) { }
      FilterKeepsAll(lst, NotSameAsAny(rem));
    } else {
      RemoveFirstDistinct(lst, rem[0]);
      var l1 := Filter(lst, NotSame(rem[0]));
      FilterPreservesDistinct(lst, NotSame(rem[0]));
      RemoveEachDistinct(l1, rem[1..]);
      forall x | x in lst
        ensures NotSameAsAny(rem)(x) == (NotSame(rem[0])(x) && NotSameAsAny(rem[1..])(x))
      {
        SameInCons(x, rem);
      }
      FilterFilter(lst, NotSame(rem[0]), NotSameAsAny(rem[1..]), NotSameAsAny(rem));
    }
  }

  /** Collecting the entries that satisfy `p` and then removing each of
      them leaves exactly the entries that do not satisfy `p`. */
  lemma RemoveSelected(lst: seq<Cookie>, p: Cookie -> bool)
    requires Distinct(lst)
    ensures RemoveEach(lst, Filter(lst, p)) == Filter(lst, Not(p))
  {
    var rem := Filter(lst, p);
    RemoveEachDistinct(lst, rem);
    forall x | x in lst ensures NotSameAsAny(rem)(x) == Not(p)(x) {
      if p(x) {
        var i :| 0 <= i < |rem| && rem[i] == x;
        assert Same(rem[i], x);
      } else if SameIn(x, rem) {
        var i :| 0 <= i < |rem| && Same(rem[i], x);
        DistinctEqualIsIdentical(lst, rem[i], x);
      }
    }
    FilterCongruent(lst, NotSameAsAny(rem), Not(p));
  }
}

=== FILE: cookie_store.dfy ===
/** DDCookieStore: the in-memory cookie store. Every operation is one atomic
    state transition of an immutable `Store` (the source serialises them
    with one lock). */
module CookieStore {

  import opened Wrappers
  import opened Text
  import opened Cookies
  import opened DomainMatch
  import opened CookieLists

  /** The HashMap from key to cookie list. `keys` is the order in which the
      map is iterated; each key occurs once and exactly the keys of
      `buckets` occur. */
  datatype Index = Index(keys: seq<HostKey>, buckets: map<HostKey, seq<Cookie>>)
  {
    /** What every operation keeps: iteration order and map agree, and no
        bucket holds two equal cookies. */
    predicate Valid()
    {
      && DistinctKeys(keys)
      && (forall k :: k in buckets ==> k in keys)
      && (forall k :: k in keys ==> k in buckets)
      && (forall k :: k in buckets ==> Distinct(buckets[k]))
    }
  }

  predicate DistinctKeys(ks: seq<HostKey>)
  {
    forall i, j :: 0 <= i < j < |ks| ==> ks[i] != ks[j]
  }

  /** The store object: the constructor's optional error handler (present or
      not), the platform flag "SDK 23 or older", and the index. */
  datatype Store = Store(hasErrorHandler: bool, applyMCompatibility: bool, index: Index)

  function NewStore(hasErrorHandler: bool, applyMCompatibility: bool): (s: Store)
    ensures s.index.Valid() && s.index.buckets == map[]
    ensures s.hasErrorHandler == hasErrorHandler && s.applyMCompatibility == applyMCompatibility
  {
    Store(hasErrorHandler, applyMCompatibility, Index([], map[]))
  }

  /** The NullPointerException an operation raises for a null argument. */
  datatype NullPointer = NullPointer(message: string)

  /** The outcome of one call: it returned `value`, possibly after handing an
      error to the handler, or it threw. */
  datatype Reply<T> =
    | Returned(store: Store, value: T, reported: Option<NullPointer>)
    | Thrown(store: Store, error: NullPointer)

  /** reportErrorOrThrow followed by the caller's early return of `fallback`. */
  function ReportErrorOrThrow<T>(s: Store, e: NullPointer, fallback: T): (r: Reply<T>)
    ensures r.store == s
    ensures r.Thrown? <==> !s.hasErrorHandler
    ensures r.Thrown? ==> r.error == e
    ensures r.Returned? ==> r.value == fallback && r.reported == Some(e)
  {
    if s.hasErrorHandler then Returned(s, fallback, Some(e)) else Thrown(s, e)
  }

  /** The error raised for a null argument, with the given message, went
      to the handler or was thrown. */
  predicate NullArgumentOutcome<T>(r: Reply<T>, message: string)
  {
    && (r.Returned? ==> r.reported == Some(NullPointer(message)))
    && (r.Thrown? ==> r.error == NullPointer(message))
  }

  function BucketOf(idx: Index, key: HostKey): seq<Cookie>
  {
    if key in idx.buckets then idx.buckets[key] else []
  }

  /** addIndex: drop the cookie equal to `c` from the key's bucket and append
      `c`; an unseen key gets the bucket [c]. */
  function AddIndex(idx: Index, key: HostKey, c: Cookie): (r: Index)
    requires idx.Valid()
    ensures r.Valid()
    ensures key in r.buckets && r.buckets[key] == Filter(BucketOf(idx, key), NotSame(c)) + [c]
    ensures forall k :: k != key ==> (k in r.buckets <==> k in idx.buckets)
    ensures forall k :: k != key && k in idx.buckets ==> r.buckets[k] == idx.buckets[k]
    ensures r.keys == if key in idx.buckets then idx.keys else idx.keys + [key]
  {
    if key in idx.buckets then
      var lst := idx.buckets[key];
      RemoveFirstDistinct(lst, c);
      var lst' := RemoveFirst(lst, c) + [c];
      FilterPreservesDistinct(lst, NotSame(c));
      DistinctAppendNew(Filter(lst, NotSame(c)), c);
      Index(idx.keys, idx.buckets[key := lst'])
    else
      var r := Index(idx.keys + [key], idx.buckets[key := [c]]);
      assert DistinctKeys(r.keys) by {
        forall i, j | 0 <= i < j < |r.keys| ensures r.keys[i] != r.keys[j] {
          if j == |idx.keys| { assert r.keys[i] in idx.keys; }
        }
      }
      r
  }

  lemma DistinctAppendNew(lst: seq<Cookie>, c: Cookie)
    requires Distinct(lst) && forall x :: x in lst ==> !Same(x, c)
    ensures Distinct(lst + [c])
  {
    var s := lst + [c];
    forall i, j | 0 <= i < j < |s| ensures !Same(s[i], s[j]) {
      assert s[i] in lst;
      if j < |lst| { assert s[j] == lst[j]; }
    }
  }

  /** add(uri, cookie). */
  function Add(s: Store, uri: Option<Uri>, cookie: Option<Cookie>): (r: Reply<()>)
    requires s.index.Valid()
    ensures r.store.index.Valid()
    ensures r.store.hasErrorHandler == s.hasErrorHandler && r.store.applyMCompatibility == s.applyMCompatibility
    ensures uri.None? || cookie.None? ==> r.store == s && (r.Thrown? <==> !s.hasErrorHandler)
    ensures uri.None? ==> NullArgumentOutcome(r, "uri is null in `add`")
    ensures uri.Some? && cookie.None? ==> NullArgumentOutcome(r, "cookie is null in `add`")
    ensures uri.Some? && cookie.Some? ==> r.Returned? && r.reported.None?
    ensures uri.Some? && cookie.Some? && cookie.value.maxAge == 0 ==> r.store == s
    ensures uri.Some? && cookie.Some? && cookie.value.maxAge != 0 ==>
      var key := EffectiveKey(uri.value);
      var c := cookie.value;
      var b := r.store.index.buckets;
      && key in b
      && b[key] == Filter(BucketOf(s.index, key), NotSame(c)) + [c]
      && (forall k :: k != key ==> (k in b <==> k in s.index.buckets))
      && (forall k :: k != key && k in s.index.buckets ==> b[k] == s.index.buckets[k])
  {
    if uri.None? then ReportErrorOrThrow(s, NullPointer("uri is null in `add`"), ())
    else if cookie.None? then ReportErrorOrThrow(s, NullPointer("cookie is null in `add`"), ())
    else if cookie.value.maxAge != 0 then
      Returned(s.(index := AddIndex(s.index, EffectiveKey(uri.value), cookie.value)), (), None)
    else Returned(s, (), None)
  }

  /** After an add, the key's bucket holds exactly one cookie equal to the
      added one, as its last entry, and the other entries keep their order. */
  lemma AddKeepsOneCopyLast(s: Store, u: Uri, c: Cookie)
    requires s.index.Valid() && c.maxAge != 0
    ensures
      var b := Add(s, Some(u), Some(c)).store.index.buckets[EffectiveKey(u)];
      && |b| > 0 && b[|b| - 1] == c
      && (forall i :: 0 <= i < |b| - 1 ==> !Same(b[i], c))
      && b[..|b| - 1] == Filter(BucketOf(s.index, EffectiveKey(u)), NotSame(c))
      && (EffectiveKey(u) !in s.index.buckets ==> b == [c])
  {
    var b := Add(s, Some(u), Some(c)).store.index.buckets[EffectiveKey(u)];
    var f := Filter(BucketOf(s.index, EffectiveKey(u)), NotSame(c));
    assert b == f + [c];
    forall i | 0 <= i < |b| - 1 ensures !Same(b[i], c) {
      assert b[i] == f[i];
      assert f[i] in f;
    }
  }

  /** Adding the same cookie identity twice keeps only the later cookie. */
  lemma AddTwiceKeepsLatest(s: Store, u: Uri, c1: Cookie, c2: Cookie)
    requires s.index.Valid() && Same(c1, c2) && c1.maxAge != 0 && c2.maxAge != 0
    ensures
      var s1 := Add(s, Some(u), Some(c1)).store;
      var b := Add(s1, Some(u), Some(c2)).store.index.buckets[EffectiveKey(u)];
      && b[|b| - 1] == c2
      && (forall x :: x in b && Same(x, c1) ==> x == c2)
  {
    var key := EffectiveKey(u);
    var s1 := Add(s, Some(u), Some(c1)).store;
    var b := Add(s1, Some(u), Some(c2)).store.index.buckets[key];
    var f := Filter(BucketOf(s1.index, key), NotSame(c2));
    assert b == f + [c2];
    forall x | x in b && Same(x, c1) ensures x == c2 {
      assert x !in f;
    }
  }

  /** What a lookup for request host `host` at time `now` needs: the store's
      compatibility flag and HttpCookie.domainMatches, whose body is not
      part of this model. */
  datatype Lookup = Lookup(
    host: Option<string>,
    now: int,
    applyMCompatibility: bool,
    rfcDomainMatches: (Option<string>, Option<string>) -> bool)

  /** The first pass's test: Netscape matching for version-0 cookies, the
      RFC 2965 match for version-1 cookies, nothing for other versions. */
  predicate DomainMatches(c: Cookie, q: Lookup)
  {
    || (c.version == 0 && NetscapeDomainMatches(c.domain, q.host, q.applyMCompatibility))
    || (c.version == 1 && q.rfcDomainMatches(c.domain, q.host))
  }

  function IsHit(q: Lookup): Cookie -> bool
  {
    c => DomainMatches(c, q) && !HasExpired(c, q.now)
  }

  function IsStale(q: Lookup): Cookie -> bool
  {
    c => DomainMatches(c, q) && HasExpired(c, q.now)
  }

  function IsLive(now: int): Cookie -> bool
  {
    c => !HasExpired(c, now)
  }

  /** The cookies of the listed buckets that satisfy `p`, bucket by bucket. */
  function Gather(ks: seq<HostKey>, b: map<HostKey, seq<Cookie>>, p: Cookie -> bool): (r: seq<Cookie>)
    requires forall k :: k in ks ==> k in b
    ensures forall x :: x in r <==> exists k :: k in ks && x in b[k] && p(x)
  {
    if ks == [] then []
    else
      var r := Filter(b[ks[0]], p) + Gather(ks[1..], b, p);
      assert forall k :: k in ks ==> k == ks[0] || k in ks[1..];
      r
  }

  lemma {:induction false} GatherFrame(ks: seq<HostKey>, b: map<HostKey, seq<Cookie>>, k0: HostKey, v: seq<Cookie>, p: Cookie -> bool)
    requires forall k :: k in ks ==> k in b
    requires k0 !in ks
    ensures Gather(ks, b[k0 := v], p) == Gather(ks, b, p)
    decreases |ks|
  {
    if ks != [] {
      GatherFrame(ks[1..], b, k0, v, p);
    }
  }

  /** getInternal1's work on one bucket: collect the matching live cookies
      without adding one twice, list the matching expired ones, then remove
      each listed cookie from the bucket. */
  function ScanBucket(acc: seq<Cookie>, lst: seq<Cookie>, q: Lookup): (seq<Cookie>, seq<Cookie>)
  {
    (AppendNew(acc, Filter(lst, IsHit(q))), RemoveEach(lst, Filter(lst, IsStale(q))))
  }

  /** getInternal1: ScanBucket over every bucket in iteration order. */
  function DomainPass(ks: seq<HostKey>, b: map<HostKey, seq<Cookie>>, acc: seq<Cookie>, q: Lookup): (r: (map<HostKey, seq<Cookie>>, seq<Cookie>))
    requires forall k :: k in ks ==> k in b
    ensures r.0.Keys == b.Keys
    decreases |ks|
  {
    if ks == [] then (b, acc)
    else
      var step := ScanBucket(acc, b[ks[0]], q);
      DomainPass(ks[1..], b[ks[0] := step.1], step.0, q)
  }

  /** The first pass collects, without repeats, every live cookie that
      domain-matches the host, and removes from each bucket exactly the
      expired cookies that match. */
  lemma {:induction false} DomainPassEffect(ks: seq<HostKey>, b: map<HostKey, seq<Cookie>>, acc: seq<Cookie>, q: Lookup)
    requires DistinctKeys(ks)
    requires forall k :: k in ks ==> k in b
    requires forall k :: k in b ==> Distinct(b[k])
    ensures var r := DomainPass(ks, b, acc, q);
      && (forall k :: k in b ==> r.0[k] == if k in ks then Filter(b[k], Not(IsStale(q))) else b[k])
      && r.1 == AppendNew(acc, Gather(ks, b, IsHit(q)))
    decreases |ks|
  {
    if ks != [] {
      var k0 := ks[0];
      var rest := ks[1..];
      var step := ScanBucket(acc, b[k0], q);
      RemoveSelected(b[k0], IsStale(q));
      FilterPreservesDistinct(b[k0], Not(IsStale(q)));
      var b1 := b[k0 := step.1];
      assert DistinctKeys(rest);
      assert k0 !in rest by {
        forall i | 0 <= i < |rest| ensures rest[i] != k0 {
          assert rest[i] == ks[i + 1];
        }
      }
      DomainPassEffect(rest, b1, step.0, q);
      GatherFrame(rest, b, k0, step.1, IsHit(q));
      AppendNewConcat(acc, Filter(b[k0], IsHit(q)), Gather(rest, b, IsHit(q)));
      assert forall k :: k in ks <==> k == k0 || k in rest;
    }
  }

  /** The loop getCookies runs over a bucket, and getInternal2 over the
      bucket of the request's key: expired cookies are removed in place and
      live ones collected without adding one twice. */
  function SweepBucket(acc: seq<Cookie>, lst: seq<Cookie>, now: int): (seq<Cookie>, seq<Cookie>)
  {
    (AppendNew(acc, Filter(lst, IsLive(now))), Filter(lst, IsLive(now)))
  }

  function SweepAll(ks: seq<HostKey>, b: map<HostKey, seq<Cookie>>, acc: seq<Cookie>, now: int): (r: (map<HostKey, seq<Cookie>>, seq<Cookie>))
    requires forall k :: k in ks ==> k in b
    ensures r.0.Keys == b.Keys
    decreases |ks|
  {
    if ks == [] then (b, acc)
    else
      var step := SweepBucket(acc, b[ks[0]], now);
      SweepAll(ks[1..], b[ks[0] := step.1], step.0, now)
  }

  lemma {:induction false} SweepAllEffect(ks: seq<HostKey>, b: map<HostKey, seq<Cookie>>, acc: seq<Cookie>, now: int)
    requires DistinctKeys(ks)
    requires forall k :: k in ks ==> k in b
    ensures var r := SweepAll(ks, b, acc, now);
      && (forall k :: k in b ==> r.0[k] == if k in ks then Filter(b[k], IsLive(now)) else b[k])
      && r.1 == AppendNew(acc, Gather(ks, b, IsLive(now)))
    decreases |ks|
  {
    if ks != [] {
      var k0 := ks[0];
      var rest := ks[1..];
      var step := SweepBucket(acc, b[k0], now);
      var b1 := b[k0 := step.1];
      assert DistinctKeys(rest);
      assert k0 !in rest by {
        forall i | 0 <= i < |rest| ensures rest[i] != k0 {
          assert rest[i] == ks[i + 1];
        }
      }
      SweepAllEffect(rest, b1, step.0, now);
      GatherFrame(rest, b, k0, step.1, IsLive(now));
      AppendNewConcat(acc, Filter(b[k0], IsLive(now)), Gather(rest, b, IsLive(now)));
      assert forall k :: k in ks <==> k == k0 || k in rest;
    }
  }

  /** What get returns for request host `q.host` and key `key`: no two equal
      cookies, no expired cookie, only cookies that match the host or sit in
      the key's bucket, and an equal cookie for every live cookie that does. */
  ghost predicate LookupResult(idx: Index, key: HostKey, q: Lookup, result: seq<Cookie>)
  {
    && Distinct(result)
    && (forall c :: c in result ==> !HasExpired(c, q.now))
    && (forall c :: c in result ==>
          (exists k :: k in idx.buckets && c in idx.buckets[k] && DomainMatches(c, q))
          || (key in idx.buckets && c in idx.buckets[key]))
    && (forall k, c :: k in idx.buckets && c in idx.buckets[k] && DomainMatches(c, q) && !HasExpired(c, q.now) ==>
          SameIn(c, result))
    && (forall c :: key in idx.buckets && c in idx.buckets[key] && !HasExpired(c, q.now) ==> SameIn(c, result))
  }

  /** What get leaves behind: the same keys; the key's bucket without its
      expired cookies; every other bucket without its expired cookies that
      match the host. */
  ghost predicate LookupEviction(idx: Index, key: HostKey, q: Lookup, idx': Index)
  {
    && idx'.Valid()
    && idx'.keys == idx.keys
    && idx'.buckets.Keys == idx.buckets.Keys
    && (forall k :: k in idx.buckets && k != key ==> idx'.buckets[k] == Filter(idx.buckets[k], Not(IsStale(q))))
    && (key in idx.buckets ==> idx'.buckets[key] == Filter(idx.buckets[key], IsLive(q.now)))
  }

  /** get's two passes under the lock: getInternal1 for the host, then
      getInternal2 for the bucket whose key equals `key`. */
  function GetFrom(idx: Index, key: HostKey, q: Lookup): (r: (Index, seq<Cookie>))
    requires idx.Valid()
    ensures LookupResult(idx, key, q, r.1)
    ensures LookupEviction(idx, key, q, r.0)
  {
    var p1 := DomainPass(idx.keys, idx.buckets, [], q);
    DomainPassEffect(idx.keys, idx.buckets, [], q);
    PassOneFacts(idx, q);
    EvictionFacts(idx, key, q, p1.0);
    if key in p1.0 then
      PassTwoFacts(idx, key, q, p1.1);
      var step := SweepBucket(p1.1, p1.0[key], q.now);
      (Index(idx.keys, p1.0[key := step.1]), step.0)
    else (Index(idx.keys, p1.0), p1.1)
  }

  /** The first pass's list: no repeats, only live cookies that match the
      host, and an equal cookie for every live stored cookie that matches. */
  ghost predicate MatchList(idx: Index, q: Lookup, acc: seq<Cookie>)
  {
    && Distinct(acc)
    && (forall c :: c in acc ==> !HasExpired(c, q.now))
    && (forall c :: c in acc ==> exists k :: k in idx.buckets && c in idx.buckets[k] && DomainMatches(c, q))
    && (forall k, c :: k in idx.buckets && c in idx.buckets[k] && DomainMatches(c, q) && !HasExpired(c, q.now) ==>
          SameIn(c, acc))
  }

  lemma PassOneFacts(idx: Index, q: Lookup)
    requires idx.Valid()
    ensures MatchList(idx, q, AppendNew([], Gather(idx.keys, idx.buckets, IsHit(q))))
  {
    var hits := Gather(idx.keys, idx.buckets, IsHit(q));
    var acc := AppendNew([], hits);
    forall k, c | k in idx.buckets && c in idx.buckets[k] && DomainMatches(c, q) && !HasExpired(c, q.now)
      ensures SameIn(c, acc)
    {
      assert c in hits;
    }
  }

  lemma PassTwoFacts(idx: Index, key: HostKey, q: Lookup, acc: seq<Cookie>)
    requires idx.Valid() && key in idx.buckets
    requires MatchList(idx, q, acc)
    ensures var bucket := Filter(idx.buckets[key], Not(IsStale(q)));
      && Filter(bucket, IsLive(q.now)) == Filter(idx.buckets[key], IsLive(q.now))
      && LookupResult(idx, key, q, AppendNew(acc, Filter(bucket, IsLive(q.now))))
  {
    var b := idx.buckets;
    var live := Filter(b[key], IsLive(q.now));
    assert Filter(Filter(b[key], Not(IsStale(q))), IsLive(q.now)) == live by {
      FilterFilter(b[key], Not(IsStale(q)), IsLive(q.now), IsLive(q.now));
    }
    var res := AppendNew(acc, live);
    assert forall c :: c in res ==> !HasExpired(c, q.now) by {
      forall c | c in res ensures !HasExpired(c, q.now) {
        assert c in acc || c in live;
      }
    }
    assert forall c :: key in b && c in b[key] && !HasExpired(c, q.now) ==> SameIn(c, res) by {
      forall c | c in b[key] && !HasExpired(c, q.now) ensures SameIn(c, res) {
        assert c in live;
      }
    }
    AppendNewKeepsSameIn(acc, live);
  }

  lemma EvictionFacts(idx: Index, key: HostKey, q: Lookup, b1: map<HostKey, seq<Cookie>>)
    requires idx.Valid()
    requires b1.Keys == idx.buckets.Keys
    requires forall k :: k in idx.buckets ==> b1[k] == Filter(idx.buckets[k], Not(IsStale(q)))
    ensures key in b1 ==> LookupEviction(idx, key, q, Index(idx.keys, b1[key := Filter(b1[key], IsLive(q.now))]))
    ensures key !in b1 ==> LookupEviction(idx, key, q, Index(idx.keys, b1))
  {
    var b := idx.buckets;
    forall k | k in b ensures Distinct(b1[k]) {
      FilterPreservesDistinct(b[k], Not(IsStale(q)));
    }
    if key in b1 {
      EvictKeyBucket(idx, key, q, b1);
    }
  }

  lemma EvictKeyBucket(idx: Index, key: HostKey, q: Lookup, b1: map<HostKey, seq<Cookie>>)
    requires idx.Valid() && key in b1
    requires b1.Keys == idx.buckets.Keys
    requires forall k :: k in idx.buckets ==> b1[k] == Filter(idx.buckets[k], Not(IsStale(q)))
    requires forall k :: k in b1 ==> Distinct(b1[k])
    ensures LookupEviction(idx, key, q, Index(idx.keys, b1[key := Filter(b1[key], IsLive(q.now))]))
  {
    var b := idx.buckets;
    var live := Filter(b1[key], IsLive(q.now));
    var b2 := b1[key := live];
    FilterFilter(b[key], Not(IsStale(q)), IsLive(q.now), IsLive(q.now));
    FilterPreservesDistinct(b[key], IsLive(q.now));
    assert b2.Keys == b.Keys;
    assert forall k :: k in b2 && k != key ==> b2[k] == b1[k];
    assert forall k :: k in b2 ==> Distinct(b2[k]);
    assert Index(idx.keys, b2).Valid();
  }

  /** get(uri). A URI without a host fails Kotlin's not-null check on the
      host argument of getInternal1: that NullPointerException, with the
      text the JVM IR backend writes for a Java getter, is thrown past the
      error handler, before either pass changes anything. */
  function Get(s: Store, uri: Option<Uri>, now: int, rfcDomainMatches: (Option<string>, Option<string>) -> bool): (r: Reply<seq<Cookie>>)
    requires s.index.Valid()
    ensures r.store.index.Valid()
    ensures r.store.hasErrorHandler == s.hasErrorHandler && r.store.applyMCompatibility == s.applyMCompatibility
    ensures uri.None? ==> r.store == s && (r.Thrown? <==> !s.hasErrorHandler) && (r.Returned? ==> r.value == [])
    ensures uri.None? ==> NullArgumentOutcome(r, "uri is null in `get`")
    ensures uri.Some? && uri.value.host.None? ==> r == Thrown(s, NullPointer("getHost(...) must not be null"))
    ensures uri.Some? && uri.value.host.Some? ==>
      var q := Lookup(uri.value.host, now, s.applyMCompatibility, rfcDomainMatches);
      && r.Returned? && r.reported.None?
      && LookupResult(s.index, EffectiveKey(uri.value), q, r.value)
      && LookupEviction(s.index, EffectiveKey(uri.value), q, r.store.index)
  {
    if uri.None? then ReportErrorOrThrow(s, NullPointer("uri is null in `get`"), [])
    else if uri.value.host.None? then Thrown(s, NullPointer("getHost(...) must not be null"))
    else
      var q := Lookup(uri.value.host, now, s.applyMCompatibility, rfcDomainMatches);
      var found := GetFrom(s.index, EffectiveKey(uri.value), q);
      Returned(s.(index := found.0), found.1, None)
  }

  /** What getCookies returns: no two equal cookies, no expired cookie, only
      stored cookies, and an equal cookie for every live stored cookie. */
  ghost predicate SnapshotResult(idx: Index, now: int, result: seq<Cookie>)
  {
    && Distinct(result)
    && (forall c :: c in result ==> !HasExpired(c, now))
    && (forall c :: c in result ==> exists k :: k in idx.buckets && c in idx.buckets[k])
    && (forall k, c :: k in idx.buckets && c in idx.buckets[k] && !HasExpired(c, now) ==> SameIn(c, result))
  }

  /** getCookies: every bucket loses its expired cookies; the live ones are
      returned without repeats. */
  function GetCookies(s: Store, now: int): (r: (Store, seq<Cookie>))
    requires s.index.Valid()
    ensures r.0.index.Valid()
    ensures r.0.hasErrorHandler == s.hasErrorHandler && r.0.applyMCompatibility == s.applyMCompatibility
    ensures r.0.index.keys == s.index.keys && r.0.index.buckets.Keys == s.index.buckets.Keys
    ensures forall k :: k in s.index.buckets ==> r.0.index.buckets[k] == Filter(s.index.buckets[k], IsLive(now))
    ensures SnapshotResult(s.index, now, r.1)
  {
    var b := s.index.buckets;
    var p := SweepAll(s.index.keys, b, [], now);
    SweepAllEffect(s.index.keys, b, [], now);
    forall k | k in b ensures Distinct(p.0[k]) {
      FilterPreservesDistinct(b[k], IsLive(now));
    }
    var live := Gather(s.index.keys, b, IsLive(now));
    assert forall c :: c in p.1 ==> c in live;
    (s.(index := Index(s.index.keys, p.0)), p.1)
  }

  /** Reading the cookies at `now1` and again at a later `now2` gives what
      one read at `now2` gives, store and list: a cookie expired at `now1`
      is still expired at `now2`. */
  lemma GetCookiesLater(s: Store, now1: int, now2: int)
    requires s.index.Valid() && now1 <= now2
    ensures GetCookies(GetCookies(s, now1).0, now2) == GetCookies(s, now2)
  {
    var first := GetCookies(s, now1).0;
    var b := s.index.buckets;
    forall k | k in s.index.keys
      ensures k in first.index.buckets && k in b
      ensures Filter(first.index.buckets[k], IsLive(now2)) == Filter(b[k], IsLive(now2))
    {
      LiveLater(b[k], now1, now2);
    }
    GetCookiesCongruent(first, s, now2);
  }

  /** Two stores with the same flags and keys whose buckets hold the same
      live cookies, bucket by bucket, read the same. */
  lemma GetCookiesCongruent(s1: Store, s2: Store, now: int)
    requires s1.index.Valid() && s2.index.Valid()
    requires s1.hasErrorHandler == s2.hasErrorHandler && s1.applyMCompatibility == s2.applyMCompatibility
    requires s1.index.keys == s2.index.keys
    requires forall k :: k in s1.index.keys ==>
      Filter(s1.index.buckets[k], IsLive(now)) == Filter(s2.index.buckets[k], IsLive(now))
    ensures GetCookies(s1, now) == GetCookies(s2, now)
  {
    SweepAllCongruent(s1.index.keys, s1.index.buckets, s2.index.buckets, [], now);
  }

  /** The sweep depends only on the live part of the swept buckets. */
  lemma {:induction false} SweepAllCongruent(ks: seq<HostKey>, b1: map<HostKey, seq<Cookie>>, b2: map<HostKey, seq<Cookie>>, acc: seq<Cookie>, now: int)
    requires b1.Keys == b2.Keys
    requires forall k :: k in ks ==> k in b1
    requires forall k :: k in ks ==> Filter(b1[k], IsLive(now)) == Filter(b2[k], IsLive(now))
    requires forall k :: k in b1 && k !in ks ==> b1[k] == b2[k]
    ensures SweepAll(ks, b1, acc, now) == SweepAll(ks, b2, acc, now)
    decreases |ks|
  {
    if ks != [] {
      var k0 := ks[0];
      var live := Filter(b1[k0], IsLive(now));
      var c1 := b1[k0 := live];
      var c2 := b2[k0 := live];
      forall k | k in ks[1..] ensures Filter(c1[k], IsLive(now)) == Filter(c2[k], IsLive(now)) {
        assert k in ks;
      }
      forall k | k in c1 && k !in ks[1..] ensures c1[k] == c2[k] {
        if k != k0 { assert k !in ks; }
      }
      SweepAllCongruent(ks[1..], c1, c2, AppendNew(acc, live), now);
    } else {
      assert forall k :: k in b1 ==> b1[k] == b2[k];
      assert b1 == b2;
    }
  }

  /** Keeping what is live at `now1`, then what is live at a later `now2`,
      keeps what is live at `now2`. */
  lemma LiveLater(lst: seq<Cookie>, now1: int, now2: int)
    requires now1 <= now2
    ensures Filter(Filter(lst, IsLive(now1)), IsLive(now2)) == Filter(lst, IsLive(now2))
  {
    forall x | x in lst ensures IsLive(now2)(x) == (IsLive(now1)(x) && IsLive(now2)(x)) {
      ExpiryMonotone(x, now1, now2);
    }
    FilterFilter(lst, IsLive(now1), IsLive(now2), IsLive(now2));
  }

  /** Reading the cookies twice at the same time gives the same list, and
      the second read changes nothing. */
  lemma GetCookiesIdempotent(s: Store, now: int)
    requires s.index.Valid()
    ensures var first := GetCookies(s, now);
      GetCookies(first.0, now) == first
  {
    GetCookiesLater(s, now, now);
  }

  /** getURIs: every key of the map, including keys whose bucket is empty. */
  function GetURIs(s: Store): (r: seq<HostKey>)
    requires s.index.Valid()
    ensures DistinctKeys(r)
    ensures forall k :: k in r <==> k in s.index.buckets
  {
    s.index.keys
  }

  /** The locked part of remove: List.remove on the key's bucket, if the
      map has one. Returns the new index and whether a cookie was removed. */
  function RemoveIndex(idx: Index, key: HostKey, c: Cookie): (r: (Index, bool))
    requires idx.Valid()
    ensures r.0.Valid()
    ensures r.0.keys == idx.keys && r.0.buckets.Keys == idx.buckets.Keys
    ensures key !in idx.buckets ==> r.0 == idx && !r.1
    ensures key in idx.buckets ==>
      && (r.1 <==> SameIn(c, idx.buckets[key]))
      && r.0.buckets[key] == Filter(idx.buckets[key], NotSame(c))
      && |r.0.buckets[key]| == (if r.1 then |idx.buckets[key]| - 1 else |idx.buckets[key]|)
    ensures forall k :: k in idx.buckets && k != key ==> r.0.buckets[k] == idx.buckets[k]
  {
    if key !in idx.buckets then (idx, false)
    else
      var lst := idx.buckets[key];
      RemoveFirstDistinct(lst, c);
      FilterPreservesDistinct(lst, NotSame(c));
      (Index(idx.keys, idx.buckets[key := RemoveFirst(lst, c)]), SameIn(c, lst))
  }

  /** remove(uri, cookie). */
  function Remove(s: Store, uri: Option<Uri>, cookie: Option<Cookie>): (r: Reply<bool>)
    requires s.index.Valid()
    ensures r.store.index.Valid()
    ensures r.store.hasErrorHandler == s.hasErrorHandler && r.store.applyMCompatibility == s.applyMCompatibility
    ensures uri.None? || cookie.None? ==>
      r.store == s && (r.Thrown? <==> !s.hasErrorHandler) && (r.Returned? ==> r.value)
    ensures uri.None? ==> NullArgumentOutcome(r, "uri is null in `remove`")
    ensures uri.Some? && cookie.None? ==> NullArgumentOutcome(r, "cookie is null in `remove`")
    ensures uri.Some? && cookie.Some? ==>
      var removed := RemoveIndex(s.index, EffectiveKey(uri.value), cookie.value);
      r == Returned(s.(index := removed.0), removed.1, None)
  {
    if uri.None? then ReportErrorOrThrow(s, NullPointer("uri is null in `remove`"), true)
    else if cookie.None? then ReportErrorOrThrow(s, NullPointer("cookie is null in `remove`"), true)
    else
      var removed := RemoveIndex(s.index, EffectiveKey(uri.value), cookie.value);
      Returned(s.(index := removed.0), removed.1, None)
  }

  /** removeAll: reports whether the map had any key, then empties it. */
  function RemoveAll(s: Store): (r: (Store, bool))
    ensures r.0.index.Valid() && r.0.index.buckets == map[] && r.0.index.keys == []
    ensures r.0.hasErrorHandler == s.hasErrorHandler && r.0.applyMCompatibility == s.applyMCompatibility
    ensures r.1 <==> exists k :: k in s.index.buckets
  {
    var result := s.index.buckets != map[];
    assert result ==> exists k :: k in s.index.buckets by {
      if result {
        var k :| k in s.index.buckets.Keys;
      }
    }
    (s.(index := Index([], map[])), result)
  }

  /** After removeAll, getURIs and getCookies return empty lists. */
  lemma RemoveAllEmptiesViews(s: Store, now: int)
    ensures GetURIs(RemoveAll(s).0) == []
    ensures GetCookies(RemoveAll(s).0, now).1 == []
  {
    var e := RemoveAll(s).0;
    var r := GetCookies(e, now).1;
    assert forall c :: c !in r;
  }

  /** A live cookie just added is returned by getCookies. */
  lemma AddedCookieIsListed(s: Store, u: Uri, c: Cookie, now: int)
    requires s.index.Valid() && c.maxAge != 0 && !HasExpired(c, now)
    ensures SameIn(c, GetCookies(Add(s, Some(u), Some(c)).store, now).1)
  {
    var s1 := Add(s, Some(u), Some(c)).store;
    AddKeepsOneCopyLast(s, u, c);
    var b := s1.index.buckets[EffectiveKey(u)];
    assert c in b;
  }

  /** A live cookie just added under a URI with a host is returned by get
      for that URI. */
  lemma AddedCookieIsFound(s: Store, u: Uri, c: Cookie, now: int, rfcDomainMatches: (Option<string>, Option<string>) -> bool)
    requires s.index.Valid() && c.maxAge != 0 && !HasExpired(c, now) && u.host.Some?
    ensures var r := Get(Add(s, Some(u), Some(c)).store, Some(u), now, rfcDomainMatches);
      r.Returned? && SameIn(c, r.value)
  {
    var s1 := Add(s, Some(u), Some(c)).store;
    AddKeepsOneCopyLast(s, u, c);
    var b := s1.index.buckets[EffectiveKey(u)];
    assert c in b;
  }

  /** Removing a cookie just added under the same URI succeeds and leaves the
      bucket as it was, minus any cookie equal to the added one. */
  lemma RemoveUndoesAdd(s: Store, u: Uri, c: Cookie)
    requires s.index.Valid() && c.maxAge != 0
    ensures var r := Remove(Add(s, Some(u), Some(c)).store, Some(u), Some(c));
      && r.Returned? && r.value
      && r.store.index.buckets[EffectiveKey(u)] == Filter(BucketOf(s.index, EffectiveKey(u)), NotSame(c))
  {
    var key := EffectiveKey(u);
    var s1 := Add(s, Some(u), Some(c)).store;
    var b1 := s1.index.buckets[key];
    var f := Filter(BucketOf(s.index, key), NotSame(c));
    assert b1 == f + [c];
    assert b1[|b1| - 1] == c;
    assert SameIn(c, b1);
    var removed := RemoveIndex(s1.index, key, c);
    assert removed.1;
    FilterConcat(f, [c], NotSame(c));
    assert Filter([c], NotSame(c)) == [];
    FilterKeepsAll(f, NotSame(c));
    assert removed.0.buckets[key] == f;
  }

  /** A URI without a host is keyed as java.net.URI.equals compares it, so
      a cookie added under it is removed under the same URI with its scheme
      in another case, say `HTTP:/x` and `http:/x`. */
  lemma RemoveWithoutHostIgnoresSchemeCase(s: Store, u: Uri, c: Cookie)
    requires s.index.Valid() && c.maxAge != 0 && u.host.None?
    ensures var r := Remove(Add(s, Some(u), Some(c)).store, Some(u.(scheme := Lower(u.scheme))), Some(c));
      r.Returned? && r.value
  {
    var v := u.(scheme := Lower(u.scheme));
    assert EffectiveKey(v) == EffectiveKey(u) by {
      LowerIdempotent(u.scheme);
      EffectiveKeyIsHostOnly(u, v);
    }
    RemoveUndoesAdd(s, u, c);
  }
}

=== FILE: cookies.dfy ===
/** The cookie entity (java.net.HttpCookie as the store sees it), its
    identity, its expiry rule, request URIs and the host-only key the store
    files cookies under. */
module Cookies {

  import opened Wrappers
  import opened Text

  /** An HttpCookie. `value`, `domain` and `path` are nullable in Java; `maxAge` is
      in seconds (-1: session cookie, 0: delete now); `whenCreated` and the
      `now` of every operation are wall-clock milliseconds. */
  datatype Cookie = Cookie(
    name: string,
    value: Option<string>,
    domain: Option<string>,
    path: Option<string>,
    secure: bool,
    httpOnly: bool,
    maxAge: int,
    version: int,
    whenCreated: int)

  /** What HttpCookie.equals compares: the name and the domain ignoring case,
      the path exactly (two absent values are equal). */
  datatype Identity = Identity(name: string, domain: Option<string>, path: Option<string>)

  function IdentityOf(c: Cookie): Identity
  {
    Identity(Lower(c.name), LowerOpt(c.domain), c.path)
  }

  /** Cookie equality as List.contains and List.remove use it. */
  predicate Same(a: Cookie, b: Cookie)
  {
    IdentityOf(a) == IdentityOf(b)
  }

  /** Java's long division, which truncates toward zero. */
  function TruncDiv(a: int, b: int): int
    requires b > 0
  {
    if a >= 0 then a / b else -((-a) / b)
  }

  /** HttpCookie.hasExpired evaluated at time `now`. */
  predicate HasExpired(c: Cookie, now: int)
  {
    c.maxAge == 0 || (c.maxAge > 0 && TruncDiv(now - c.whenCreated, 1000) > c.maxAge)
  }

  /** With a positive max-age, a cookie expires once a full second past its
      max-age has elapsed since creation, because the elapsed time is
      truncated to whole seconds; a negative max-age never expires and a
      zero max-age always has. */
  lemma ExpiryMoment(c: Cookie, now: int)
    ensures c.maxAge > 0 ==> (HasExpired(c, now) <==> now - c.whenCreated >= 1000 * (c.maxAge + 1))
    ensures c.maxAge < 0 ==> !HasExpired(c, now)
    ensures c.maxAge == 0 ==> HasExpired(c, now)
  {
    if c.maxAge > 0 {
      var d := now - c.whenCreated;
      if d >= 0 {
        var q := d / 1000;
        assert d == 1000 * q + d % 1000;
        if d >= 1000 * (c.maxAge + 1) {
          assert q >= c.maxAge + 1;
        } else {
          assert q <= c.maxAge;
        }
      } else {
        assert TruncDiv(d, 1000) <= 0;
      }
    }
  }

  /** Expiry is permanent: a cookie expired at `now1` is expired at every
      later moment. */
  lemma ExpiryMonotone(c: Cookie, now1: int, now2: int)
    requires now1 <= now2
    ensures HasExpired(c, now1) ==> HasExpired(c, now2)
  {
    ExpiryMoment(c, now1);
    ExpiryMoment(c, now2);
  }

  /** A request URI (java.net.URI). `authority` is the whole authority
      component; `host` is present only when the authority parses as a
      server name, so `http://a_b/x` has an authority and no host. */
  datatype Uri = Uri(
    scheme: string,
    authority: Option<string>,
    host: Option<string>,
    port: int,
    path: string,
    query: Option<string>,
    fragment: Option<string>)

  /** What java.net.URI.equals compares for a URI without a host: the scheme
      ignoring case, then the authority, path, query and fragment exactly. */
  datatype UriIdentity = UriIdentity(
    scheme: string,
    authority: Option<string>,
    path: string,
    query: Option<string>,
    fragment: Option<string>)

  /** The store's bucket key. For a URI with a host it is `http://<host>`,
      which java.net.URI compares ignoring the host's case, so the key keeps
      the case-folded host. Without a host, building `http:` alone fails
      with a URISyntaxException and the request URI itself is the key, as
      java.net.URI.equals compares it. */
  datatype HostKey = ByHost(host: string) | WholeUri(id: UriIdentity)

  /** getEffectiveURI: the key keeps the host and drops scheme, port, path,
      query and fragment, unless there is no host. */
  function EffectiveKey(u: Uri): (k: HostKey)
    ensures k.ByHost? <==> u.host.Some?
    ensures u.host.Some? ==> EqualsIgnoreCase(k.host, u.host.value)
    ensures u.host.None? ==>
      && EqualsIgnoreCase(k.id.scheme, u.scheme)
      && k.id.authority == u.authority && k.id.path == u.path
      && k.id.query == u.query && k.id.fragment == u.fragment
  {
    match u.host
    case Some(h) =>
      LowerIdempotent(h);
      ByHost(Lower(h))
    case None =>
      LowerIdempotent(u.scheme);
      WholeUri(UriIdentity(Lower(u.scheme), u.authority, u.path, u.query, u.fragment))
  }

  /** Two URIs with hosts share a bucket exactly when their hosts are equal
      up to case, whatever their other components. Two URIs without hosts
      share a bucket exactly when java.net.URI.equals holds of them: the
      schemes are equal up to case and the authorities, paths, queries and
      fragments are equal; the port plays no part. */
  lemma EffectiveKeyIsHostOnly(u1: Uri, u2: Uri)
    ensures EffectiveKey(u1) == EffectiveKey(u2) <==>
      || (u1.host.Some? && u2.host.Some? && EqualsIgnoreCase(u1.host.value, u2.host.value))
      || (&& u1.host.None? && u2.host.None?
          && EqualsIgnoreCase(u1.scheme, u2.scheme)
          && u1.authority == u2.authority && u1.path == u2.path
          && u1.query == u2.query && u1.fragment == u2.fragment)
  {
  }
}

=== FILE: domain_match.dfy ===
/** The permissive, pre-RFC 2965 ("Netscape") domain match used for
    version-0 cookies. Unlike section 3.3.2 of RFC 2965 it does not reject
    a host whose part in front of the domain contains a dot. */
module DomainMatch {

  import opened Wrappers
  import opened Text

  predicate IsLocalDomain(domain: string)
  {
    EqualsIgnoreCase(".local", domain)
  }

  /** The domain has a dot that is neither its first nor its last character. */
  predicate HasEmbeddedDot(domain: string)
  {
    exists i :: 1 <= i < |domain| - 1 && domain[i] == '.'
  }

  predicate HasNoDot(host: string)
  {
    forall i :: 0 <= i < |host| ==> host[i] != '.'
  }

  /** netscapeDomainMatches; `applyMCompatibility` stands for the platform
      check "SDK version 23 or older". */
  function NetscapeDomainMatches(domain: Option<string>, host: Option<string>, applyMCompatibility: bool): (r: bool)
    ensures domain.None? || host.None? ==> !r
    ensures r ==> IsLocalDomain(domain.value) || HasEmbeddedDot(domain.value)
  {
    if domain.None? || host.None? then false
    else
      var d := domain.value;
      var h := host.value;
      var isLocalDomain := EqualsIgnoreCase(".local", d);
      var firstDot := IndexOf(d, '.', 0);
      var embeddedDotInDomain := if firstDot == 0 then IndexOf(d, '.', 1) else firstDot;
      if !isLocalDomain && (embeddedDotInDomain == -1 || embeddedDotInDomain == |d| - 1) then
        assert !HasEmbeddedDot(d) by { EmbeddedDotSearch(d); }
        false
      else if IndexOf(h, '.', 0) == -1 && isLocalDomain then true
      else
        assert HasEmbeddedDot(d) || isLocalDomain by { EmbeddedDotSearch(d); }
        var lengthDiff := |h| - |d|;
        if lengthDiff == 0 then EqualsIgnoreCase(h, d)
        else if lengthDiff > 0 then
          if applyMCompatibility && !StartsWithDot(d) then false
          else EqualsIgnoreCase(h[lengthDiff..], d)
        else if lengthDiff == -1 then d[0] == '.' && EqualsIgnoreCase(h, d[1..])
        else false
  }

  /** The two-step search for a dot in the source (skip a leading dot, then
      look again) finds a dot that is neither first nor last exactly when the
      domain has an embedded dot. */
  lemma EmbeddedDotSearch(d: string)
    ensures
      var firstDot := IndexOf(d, '.', 0);
      var e := if firstDot == 0 then IndexOf(d, '.', 1) else firstDot;
      (e == -1 || e == |d| - 1) <==> !HasEmbeddedDot(d)
  {
    var firstDot := IndexOf(d, '.', 0);
    var e := if firstDot == 0 then IndexOf(d, '.', 1) else firstDot;
    var e1 := IndexOf(d, '.', 1);
    assert e == e1;
    if e1 != -1 && e1 != |d| - 1 {
      assert 1 <= e1 < |d| - 1 && d[e1] == '.';
    }
  }

  /** The whole decision, case by case, once both arguments are present. */
  lemma NetscapeDomainMatchesCases(d: string, h: string, applyMCompatibility: bool)
    ensures !IsLocalDomain(d) && !HasEmbeddedDot(d) ==>
      !NetscapeDomainMatches(Some(d), Some(h), applyMCompatibility)
    ensures IsLocalDomain(d) && HasNoDot(h) ==>
      NetscapeDomainMatches(Some(d), Some(h), applyMCompatibility)
    ensures (IsLocalDomain(d) || HasEmbeddedDot(d)) && !(IsLocalDomain(d) && HasNoDot(h)) ==>
      (NetscapeDomainMatches(Some(d), Some(h), applyMCompatibility) <==>
        if |h| == |d| then EqualsIgnoreCase(h, d)
        else if |h| > |d| then
          (!applyMCompatibility || StartsWithDot(d)) && EqualsIgnoreCase(h[|h| - |d|..], d)
        else if |h| + 1 == |d| then StartsWithDot(d) && EqualsIgnoreCase(h, d[1..])
        else false)
  {
    EmbeddedDotSearch(d);
  }

  /** The Android M compatibility rule only ever refuses matches. */
  lemma MCompatibilityOnlyRefuses(domain: Option<string>, host: Option<string>)
    ensures NetscapeDomainMatches(domain, host, true) ==> NetscapeDomainMatches(domain, host, false)
  {
  }

  /** The match ignores the letter case of the host. */
  lemma NetscapeIgnoresHostCase(d: string, h: string, applyMCompatibility: bool)
    ensures NetscapeDomainMatches(Some(d), Some(h), applyMCompatibility) ==
            NetscapeDomainMatches(Some(d), Some(Lower(h)), applyMCompatibility)
  {
    var lh := Lower(h);
    LowerIdempotent(h);
    forall i | 0 <= i < |h| ensures lh[i] == '.' <==> h[i] == '.' {
      assert lh[i] == LowerChar(h[i]);
    }
    assert HasNoDot(h) <==> HasNoDot(lh);
    assert IndexOf(h, '.', 0) == -1 <==> IndexOf(lh, '.', 0) == -1;
    if |h| > |d| {
      LowerSuffix(h, |h| - |d|);
      LowerSuffix(lh, |h| - |d|);
    }
  }

  /** A domain written without a leading dot covers its subdomains unless
      the Android M compatibility rule is on. */
  lemma BareDomainCoversSubdomainExample(d: string, h: string)
    requires d == "example.com" && h == "www.example.com"
    ensures NetscapeDomainMatches(Some(d), Some(h), false)
    ensures !NetscapeDomainMatches(Some(d), Some(h), true)
    ensures NetscapeDomainMatches(Some("." + d), Some(h), true)
  {
    var dd := "." + d;
    assert !IsLocalDomain(d) && !IsLocalDomain(dd) by {
      assert |Lower(".local")| == 6;
    }
    assert d[7] == '.' && dd[8] == '.';
    assert h[3] == '.';
    assert h[4..] == d && h[3..] == dd;
    NetscapeDomainMatchesCases(d, h, false);
    NetscapeDomainMatchesCases(d, h, true);
    NetscapeDomainMatchesCases(dd, h, true);
  }
}

=== FILE: header.dfy ===
/** The Set-Cookie style string DDCookieManager hands to the embedded
    browser for one cookie (httpCookieToHeaderString), and a reader for it
    that shows the string is unambiguous. */
module Header {

  import opened Wrappers
  import opened Text
  import opened Cookies

  /** The adjustedDomain extension property: one leading dot removed. */
  function AdjustedDomain(domain: string): (r: string)
    ensures StartsWithDot(domain) ==> "." + r == domain
    ensures !StartsWithDot(domain) ==> r == domain
  {
    if StartsWithDot(domain) then domain[1..] else domain
  }

  /** Adding a dot in front and adjusting gives back the original name, but
      adjusting is not idempotent: only one dot is removed. */
  lemma AdjustedDomainRemovesOneDot(x: string)
    ensures AdjustedDomain("." + x) == x
    ensures AdjustedDomain("..a") == ".a" && AdjustedDomain(AdjustedDomain("..a")) == "a"
  {
    assert ("." + x)[1..] == x;
    assert "..a"[1..] == ".a";
    assert ".a"[1..] == "a";
  }

  /** The optional segments after `name=value`, in the order they appear. */
  datatype Attr = MaxAge(seconds: int) | Path(path: string) | Domain(domain: string) | Secure | HttpOnly

  function Rank(a: Attr): nat
  {
    match a
    case MaxAge(_) => 0
    case Path(_) => 1
    case Domain(_) => 2
    case Secure => 3
    case HttpOnly => 4
  }

  function AttrText(a: Attr): string
  {
    match a
    case MaxAge(n) => "max_age=" + LongToString(n)
    case Path(p) => "path=" + p
    case Domain(d) => "domain=" + d
    case Secure => "secure"
    case HttpOnly => "httponly"
  }

  /** Each segment written as "; " followed by its text. */
  function Render(attrs: seq<Attr>): string
  {
    if attrs == [] then "" else "; " + AttrText(attrs[0]) + Render(attrs[1..])
  }

  /** Rendered segments are empty or start with the separator. */
  lemma RenderStartsWithSeparator(attrs: seq<Attr>)
    ensures Render(attrs) == [] || Render(attrs)[0] == ';'
  {
  }

  lemma {:induction false} RenderConcat(a: seq<Attr>, b: seq<Attr>)
    ensures Render(a + b) == Render(a) + Render(b)
    decreases |a|
  {
    if a == [] {
      assert a + b == b;
    } else {
      assert (a + b)[0] == a[0];
      assert (a + b)[1..] == a[1..] + b;
      RenderConcat(a[1..], b);
    }
  }

  /** The segment of rank `rank` the cookie gets, if any. */
  function SegmentAt(c: Cookie, httpOnlySupported: bool, rank: nat): seq<Attr>
  {
    if rank == 0 then (if c.maxAge != -1 then [MaxAge(c.maxAge)] else [])
    else if rank == 1 then (if c.path.Some? then [Path(c.path.value)] else [])
    else if rank == 2 then (if c.domain.Some? then [Domain(AdjustedDomain(c.domain.value))] else [])
    else if rank == 3 then (if c.secure then [Secure] else [])
    else if rank == 4 then (if httpOnlySupported && c.httpOnly then [HttpOnly] else [])
    else []
  }

  /** The segments of rank `rank` and above. */
  function SegmentsFrom(c: Cookie, httpOnlySupported: bool, rank: nat): seq<Attr>
    decreases 5 - rank
  {
    if rank >= 5 then []
    else SegmentAt(c, httpOnlySupported, rank) + SegmentsFrom(c, httpOnlySupported, rank + 1)
  }

  /** Segments in strictly increasing rank: each kind at most once, in
      the fixed order. */
  predicate Ascending(attrs: seq<Attr>)
  {
    forall i, j :: 0 <= i < j < |attrs| ==> Rank(attrs[i]) < Rank(attrs[j])
  }

  /** Whether the header of `c` carries exactly the segment `a`: a max-age
      unless it is -1, the path and the adjusted domain when present, secure
      when set, httponly when set and the platform supports it (SDK 24 or
      newer). */
  predicate Wanted(c: Cookie, httpOnlySupported: bool, a: Attr)
  {
    match a
    case MaxAge(n) => c.maxAge != -1 && n == c.maxAge
    case Path(p) => c.path == Some(p)
    case Domain(d) => c.domain.Some? && d == AdjustedDomain(c.domain.value)
    case Secure => c.secure
    case HttpOnly => httpOnlySupported && c.httpOnly
  }

  lemma SegmentAtRank(c: Cookie, httpOnlySupported: bool, rank: nat)
    ensures |SegmentAt(c, httpOnlySupported, rank)| <= 1
    ensures forall a :: a in SegmentAt(c, httpOnlySupported, rank) <==>
      Rank(a) == rank && Wanted(c, httpOnlySupported, a)
  {
  }

  /** SegmentsFrom lists the wanted segments of rank `rank` and above, in
      strictly increasing rank. */
  lemma {:induction false} SegmentsFromOrdered(c: Cookie, httpOnlySupported: bool, rank: nat)
    ensures Ascending(SegmentsFrom(c, httpOnlySupported, rank))
    ensures forall a :: a in SegmentsFrom(c, httpOnlySupported, rank) <==>
      rank <= Rank(a) && Wanted(c, httpOnlySupported, a)
    decreases 5 - rank
  {
    if rank < 5 {
      var head := SegmentAt(c, httpOnlySupported, rank);
      var tail := SegmentsFrom(c, httpOnlySupported, rank + 1);
      SegmentAtRank(c, httpOnlySupported, rank);
      SegmentsFromOrdered(c, httpOnlySupported, rank + 1);
      assert forall a :: a in head + tail <==> a in head || a in tail;
      var s := head + tail;
      forall i, j | 0 <= i < j < |s| ensures Rank(s[i]) < Rank(s[j]) {
        if i < |head| {
          assert s[i] in head;
          assert s[j] == tail[j - |head|] && s[j] in tail;
        } else {
          assert s[i] == tail[i - |head|] && s[j] == tail[j - |head|];
        }
      }
    } else {
      forall a ensures Rank(a) < 5 { }
    }
  }

  /** The segments a cookie gets, in rank order. */
  function HeaderAttributes(c: Cookie, httpOnlySupported: bool): seq<Attr>
  {
    SegmentsFrom(c, httpOnlySupported, 0)
  }

  /** The header carries each wanted segment once and nothing else, in the
      fixed order max-age, path, domain, secure, httponly. */
  lemma HeaderAttributesSpec(c: Cookie, httpOnlySupported: bool)
    ensures Ascending(HeaderAttributes(c, httpOnlySupported))
    ensures forall a :: a in HeaderAttributes(c, httpOnlySupported) <==> Wanted(c, httpOnlySupported, a)
  {
    SegmentsFromOrdered(c, httpOnlySupported, 0);
  }

  /** httpCookieToHeaderString; `httpOnlySupported` stands for the platform
      check "SDK 24 or newer". */
  function HeaderString(c: Cookie, httpOnlySupported: bool): string
  {
    var maxAge := if c.maxAge != -1 then "; max_age=" + LongToString(c.maxAge) else "";
    var path := if c.path.Some? then "; path=" + c.path.value else "";
    var domain := if c.domain.Some? then "; domain=" + AdjustedDomain(c.domain.value) else "";
    var secure := if c.secure then "; secure" else "";
    var httpOnly := if httpOnlySupported && c.httpOnly then "; httponly" else "";
    c.name + "=" + NullText(c.value) + (maxAge + (path + (domain + (secure + httpOnly))))
  }

  /** The header is `name=value` followed by exactly the segments
      HeaderAttributes lists, each written as "; " and its text. */
  lemma HeaderStringSpec(c: Cookie, httpOnlySupported: bool)
    ensures HeaderString(c, httpOnlySupported) == c.name + "=" + NullText(c.value) + Render(HeaderAttributes(c, httpOnlySupported))
    ensures var r := HeaderString(c, httpOnlySupported);
      |r| >= |c.name| + 1 + |NullText(c.value)| && r[..|c.name| + 1 + |NullText(c.value)|] == c.name + "=" + NullText(c.value)
  {
    var maxAge := if c.maxAge != -1 then "; max_age=" + LongToString(c.maxAge) else "";
    var path := if c.path.Some? then "; path=" + c.path.value else "";
    var domain := if c.domain.Some? then "; domain=" + AdjustedDomain(c.domain.value) else "";
    var secure := if c.secure then "; secure" else "";
    var httpOnly := if httpOnlySupported && c.httpOnly then "; httponly" else "";
    RenderSegments(c, httpOnlySupported, maxAge, path, domain, secure, httpOnly);
    var head := c.name + "=" + NullText(c.value);
    var segments := maxAge + (path + (domain + (secure + httpOnly)));
    assert (head + segments)[..|head|] == head;
  }

  lemma RenderSegments(c: Cookie, httpOnlySupported: bool, maxAge: string, path: string, domain: string, secure: string, httpOnly: string)
    requires maxAge == if c.maxAge != -1 then "; max_age=" + LongToString(c.maxAge) else ""
    requires path == if c.path.Some? then "; path=" + c.path.value else ""
    requires domain == if c.domain.Some? then "; domain=" + AdjustedDomain(c.domain.value) else ""
    requires secure == if c.secure then "; secure" else ""
    requires httpOnly == if httpOnlySupported && c.httpOnly then "; httponly" else ""
    ensures Render(SegmentsFrom(c, httpOnlySupported, 0)) == maxAge + (path + (domain + (secure + httpOnly)))
  {
    var hs := httpOnlySupported;
    RenderSegment(c, hs, 0);
    RenderSegment(c, hs, 1);
    RenderSegment(c, hs, 2);
    RenderSegment(c, hs, 3);
    RenderSegment(c, hs, 4);
    RenderChain(c, hs, maxAge, path, domain, secure, httpOnly);
  }

  lemma RenderChain(c: Cookie, hs: bool, s0: string, s1: string, s2: string, s3: string, s4: string)
    requires Render(SegmentAt(c, hs, 0)) == s0 && Render(SegmentAt(c, hs, 1)) == s1
    requires Render(SegmentAt(c, hs, 2)) == s2 && Render(SegmentAt(c, hs, 3)) == s3
    requires Render(SegmentAt(c, hs, 4)) == s4
    ensures Render(SegmentsFrom(c, hs, 0)) == s0 + (s1 + (s2 + (s3 + s4)))
  {
    var a0, a1, a2, a3, a4 := SegmentAt(c, hs, 0), SegmentAt(c, hs, 1), SegmentAt(c, hs, 2), SegmentAt(c, hs, 3), SegmentAt(c, hs, 4);
    assert SegmentsFrom(c, hs, 0) == a0 + (a1 + (a2 + (a3 + a4))) by {
      assert SegmentsFrom(c, hs, 4) == a4 by { assert a4 + [] == a4; }
      assert SegmentsFrom(c, hs, 3) == a3 + a4;
      assert SegmentsFrom(c, hs, 2) == a2 + (a3 + a4);
      assert SegmentsFrom(c, hs, 1) == a1 + (a2 + (a3 + a4));
    }
    RenderConcat(a3, a4);
    RenderConcat(a2, a3 + a4);
    RenderConcat(a1, a2 + (a3 + a4));
    RenderConcat(a0, a1 + (a2 + (a3 + a4)));
  }

  lemma RenderSegment(c: Cookie, httpOnlySupported: bool, rank: nat)
    requires rank < 5
    ensures Render(SegmentAt(c, httpOnlySupported, rank)) ==
      if rank == 0 then (if c.maxAge != -1 then "; max_age=" + LongToString(c.maxAge) else "")
      else if rank == 1 then (if c.path.Some? then "; path=" + c.path.value else "")
      else if rank == 2 then (if c.domain.Some? then "; domain=" + AdjustedDomain(c.domain.value) else "")
      else if rank == 3 then (if c.secure then "; secure" else "")
      else (if httpOnlySupported && c.httpOnly then "; httponly" else "")
  {
  }

  /** A header split back into its parts. */
  datatype HeaderParts = HeaderParts(name: string, value: string, attrs: seq<Attr>)

  function ParseAttr(tok: string): Option<Attr>
  {
    if tok == "secure" then Some(Secure)
    else if tok == "httponly" then Some(HttpOnly)
    else if |tok| >= 8 && tok[..8] == "max_age=" then
      match ParseLong(tok[8..])
      case Some(n) => Some(MaxAge(n))
      case None => None
    else if |tok| >= 5 && tok[..5] == "path=" then Some(Path(tok[5..]))
    else if |tok| >= 7 && tok[..7] == "domain=" then Some(Domain(tok[7..]))
    else None
  }

  function ParseAttrs(t: string): Option<seq<Attr>>
    decreases |t|
  {
    if t == [] then Some([])
    else if |t| < 2 || t[..2] != "; " then None
    else
      var body := t[2..];
      var j := IndexOf(body, ';', 0);
      var tok := if j == -1 then body else body[..j];
      var rest := if j == -1 then "" else body[j..];
      match ParseAttr(tok)
      case None => None
      case Some(a) =>
        match ParseAttrs(rest)
        case None => None
        case Some(more) => Some([a] + more)
  }

  /** Reads `name=value` up to the first ';' and then the segments. */
  function ParseHeader(h: string): Option<HeaderParts>
  {
    var eq := IndexOf(h, '=', 0);
    if eq == -1 then None else ParseAfterName(h[..eq], h[eq + 1..])
  }

  /** Reads the value up to the first ';' and the segments after it. */
  function ParseAfterName(name: string, after: string): Option<HeaderParts>
  {
    var semi := IndexOf(after, ';', 0);
    var value := if semi == -1 then after else after[..semi];
    var tail := if semi == -1 then "" else after[semi..];
    match ParseAttrs(tail)
    case None => None
    case Some(attrs) => Some(HeaderParts(name, value, attrs))
  }

  predicate AttrReadable(a: Attr)
  {
    match a
    case Path(p) => ';' !in p
    case Domain(d) => ';' !in d
    case _ => true
  }

  lemma ParseAttrText(a: Attr)
    ensures ParseAttr(AttrText(a)) == Some(a)
  {
    var tok := AttrText(a);
    match a
    case MaxAge(n) =>
      assert tok[0] == 'm' && |tok| > 8;
      assert tok[..8] == "max_age=" && tok[8..] == LongToString(n);
      LongToStringRoundTrip(n);
    case Path(p) =>
      assert tok[0] == 'p';
      assert tok[..5] == "path=" && tok[5..] == p;
    case Domain(d) =>
      assert tok[0] == 'd';
      assert tok[..7] == "domain=" && tok[7..] == d;
    case Secure =>
    case HttpOnly =>
  }

  lemma AttrTextReadable(a: Attr)
    requires AttrReadable(a)
    ensures ';' !in AttrText(a)
  {
    match a
    case MaxAge(n) =>
      assert AttrText(a) == "max_age=" + LongToString(n);
    case Path(p) =>
      assert AttrText(a) == "path=" + p;
    case Domain(d) =>
      assert AttrText(a) == "domain=" + d;
    case Secure =>
    case HttpOnly =>
  }

  /** One segment is read off the front of a rendered list: its text runs
      up to the next ';' or the end. */
  lemma ParseAttrsStep(text: string, tail: string, a: Attr)
    requires ';' !in text && ParseAttr(text) == Some(a)
    requires tail == [] || tail[0] == ';'
    ensures ParseAttrs("; " + (text + tail)) ==
      if ParseAttrs(tail).Some? then Some([a] + ParseAttrs(tail).value) else None
  {
    var t := "; " + (text + tail);
    assert t[..2] == "; " && t[2..] == text + tail;
    SplitAtFirst(text, tail, ';');
  }

  lemma {:induction false} ParseRender(attrs: seq<Attr>)
    requires forall a :: a in attrs ==> AttrReadable(a)
    ensures ParseAttrs(Render(attrs)) == Some(attrs)
    decreases |attrs|
  {
    if attrs != [] {
      assert attrs[0] in attrs;
      AttrTextReadable(attrs[0]);
      ParseAttrText(attrs[0]);
      assert forall a :: a in attrs[1..] ==> a in attrs;
      ParseRender(attrs[1..]);
      ParseRenderStep(attrs);
    }
  }

  /** The step of ParseRender: the first segment reads back, then the rest. */
  lemma ParseRenderStep(attrs: seq<Attr>)
    requires attrs != []
    requires ';' !in AttrText(attrs[0]) && ParseAttr(AttrText(attrs[0])) == Some(attrs[0])
    requires ParseAttrs(Render(attrs[1..])) == Some(attrs[1..])
    ensures ParseAttrs(Render(attrs)) == Some(attrs)
  {
    var text := AttrText(attrs[0]);
    var tail := Render(attrs[1..]);
    assert Render(attrs) == "; " + (text + tail) by {
      assert "; " + text + tail == "; " + (text + tail);
    }
    RenderStartsWithSeparator(attrs[1..]);
    ParseAttrsStep(text, tail, attrs[0]);
    assert [attrs[0]] + attrs[1..] == attrs;
  }

  /** `name=value` is read off the front of a header up to the first '='
      and the next ';'. */
  lemma ParseHeaderFrame(name: string, value: string, tail: string)
    requires '=' !in name && ';' !in value
    requires tail == [] || tail[0] == ';'
    ensures ParseHeader(name + "=" + value + tail) ==
      if ParseAttrs(tail).Some? then Some(HeaderParts(name, value, ParseAttrs(tail).value)) else None
  {
    var h := name + "=" + value + tail;
    var after := value + tail;
    assert ParseHeader(h) == ParseAfterName(name, after) by {
      var rest := "=" + after;
      assert h == name + rest;
      SplitAtFirst(name, rest, '=');
      assert h[|name|..] == rest;
      assert h[|name| + 1..] == rest[1..] == after;
    }
    SplitAtFirst(value, tail, ';');
  }

  /** Every segment a header carries reads back, given that the path and the
      domain hold no ';'. */
  lemma ParseHeaderAttributes(c: Cookie, httpOnlySupported: bool)
    requires c.path.Some? ==> ';' !in c.path.value
    requires c.domain.Some? ==> ';' !in c.domain.value
    ensures ParseAttrs(Render(HeaderAttributes(c, httpOnlySupported))) == Some(HeaderAttributes(c, httpOnlySupported))
  {
    var attrs := HeaderAttributes(c, httpOnlySupported);
    forall a | a in attrs ensures AttrReadable(a) {
      HeaderAttributesSpec(c, httpOnlySupported);
      if a.Domain? {
        var d := c.domain.value;
        if StartsWithDot(d) {
          assert d == "." + a.domain;
          assert forall k :: 0 <= k < |a.domain| ==> a.domain[k] == d[k + 1];
        }
      }
    }
    ParseRender(attrs);
  }

  /** A cookie whose name has no '=' and whose value, path and domain have
      no ';' can be read back from its header: the name, the value as the
      template printed it ("null" for a null value) and exactly the segments
      HeaderAttributes lists. */
  lemma HeaderRoundTrip(c: Cookie, httpOnlySupported: bool)
    requires '=' !in c.name
    requires c.value.Some? ==> ';' !in c.value.value
    requires c.path.Some? ==> ';' !in c.path.value
    requires c.domain.Some? ==> ';' !in c.domain.value
    ensures ParseHeader(HeaderString(c, httpOnlySupported)) ==
      Some(HeaderParts(c.name, NullText(c.value), HeaderAttributes(c, httpOnlySupported)))
  {
    var attrs := HeaderAttributes(c, httpOnlySupported);
    var tail := Render(attrs);
    HeaderStringSpec(c, httpOnlySupported);
    ParseHeaderAttributes(c, httpOnlySupported);
    assert tail == [] || tail[0] == ';';
    ParseHeaderFrame(c.name, NullText(c.value), tail);
  }

  /** A secure httponly session cookie for ".a.com" at "/", on a platform
      without httponly support, gets the path, the domain without its dot,
      and secure: no max-age (it is -1) and no httponly. */
  lemma HeaderAttributesExample(c: Cookie)
    requires c == Cookie("n", Some("v"), Some(".a.com"), Some("/"), true, true, -1, 0, 0)
    ensures HeaderAttributes(c, false) == [Path("/"), Domain("a.com"), Secure]
  {
    assert AdjustedDomain(c.domain.value) == "a.com" by {
      assert c.domain.value[1..] == "a.com";
    }
    assert SegmentAt(c, false, 0) == [];
    assert SegmentAt(c, false, 1) == [Path("/")];
    assert SegmentsFrom(c, false, 5) == [];
    assert SegmentsFrom(c, false, 4) == [];
    assert SegmentsFrom(c, false, 3) == [Secure];
    assert SegmentsFrom(c, false, 2) == [Domain("a.com"), Secure];
  }

  /** A session cookie with a null value and no attributes: the template
      prints the value as "null" and adds no segment. */
  lemma NullValueHeaderExample(c: Cookie)
    requires c == Cookie("n", None, None, None, false, false, -1, 0, 0)
    ensures HeaderString(c, true) == "n=null"
  {
  }
}

=== FILE: sync.dfy ===
/** syncCookiesToWebkit: every cookie the store lists is handed to the
    embedded browser's cookie manager, then that manager is flushed. The
    browser is not modelled; what the sync does to it is a trace of events. */
module Sync {

  import opened Wrappers
  import opened Text
  import opened Cookies
  import opened CookieLists
  import opened CookieStore
  import opened Header

  /** The two calls the sync makes on the browser's cookie manager. */
  datatype Event = SetCookie(url: string, header: string) | Flush

  /** "https" for a secure cookie, "http" otherwise. */
  function Scheme(c: Cookie): (r: string)
    ensures r == "https" <==> c.secure
    ensures r == "http" <==> !c.secure
  {
    if c.secure then "https" else "http"
  }

  /** The URL a cookie is set for, or None where reading the adjusted domain
      of a cookie without a domain raises a NullPointerException. */
  function HostUrl(c: Cookie): (r: Option<string>)
    ensures r.None? <==> c.domain.None?
  {
    match c.domain
    case None => None
    case Some(d) => Some(Scheme(c) + "://" + AdjustedDomain(d) + NullText(c.path))
  }

  /** The URL names the scheme the cookie's secure flag asks for, then the
      domain without its leading dot, then the path. */
  lemma HostUrlShape(c: Cookie, rest: string)
    requires c.domain.Some?
    requires rest == AdjustedDomain(c.domain.value) + NullText(c.path)
    ensures c.secure ==> HostUrl(c) == Some("https://" + rest)
    ensures !c.secure ==> HostUrl(c) == Some("http://" + rest)
    ensures c.secure <==> |HostUrl(c).value| >= 8 && HostUrl(c).value[..8] == "https://"
  {
    var u := HostUrl(c).value;
    var scheme := Scheme(c);
    assert u == scheme + ("://" + rest);
    if c.secure {
      assert u == "https://" + rest;
      assert u[..8] == "https://";
    } else {
      assert u == "http://" + rest;
      assert u[4] == ':';
    }
  }

  /** The event for one cookie that has a domain. */
  function Write(c: Cookie, httpOnlySupported: bool): Event
    requires c.domain.Some?
  {
    SetCookie(HostUrl(c).value, HeaderString(c, httpOnlySupported))
  }

  /** How many cookies the forEach loop gets through: all of them, or up to
      the first one without a domain, whose URL raises a
      NullPointerException. */
  function Reached(cookies: seq<Cookie>): (n: nat)
    ensures n <= |cookies|
    ensures forall i :: 0 <= i < n ==> cookies[i].domain.Some?
    ensures n < |cookies| ==> cookies[n].domain.None?
    decreases |cookies|
  {
    if cookies == [] || cookies[0].domain.None? then 0
    else
      var n := Reached(cookies[1..]);
      assert forall i :: 1 <= i < 1 + n ==> cookies[i] == cookies[1..][i - 1];
      1 + n
  }

  /** The forEach loop: one SetCookie per cookie in list order, stopping at
      the first cookie without a domain. The flag says whether the loop ran
      to the end. */
  function WriteAll(cookies: seq<Cookie>, httpOnlySupported: bool): (r: (seq<Event>, bool))
  {
    var n := Reached(cookies);
    (seq(n, i requires 0 <= i < n => Write(cookies[i], httpOnlySupported)), n == |cookies|)
  }

  /** The loop runs to the end exactly when every cookie has a domain; the
      events are the writes of the cookies in order, up to the first one
      without a domain. */
  lemma WriteAllSpec(cookies: seq<Cookie>, httpOnlySupported: bool)
    ensures var r := WriteAll(cookies, httpOnlySupported);
      && (r.1 <==> forall c :: c in cookies ==> c.domain.Some?)
      && (r.1 ==> |r.0| == |cookies|)
      && (!r.1 ==> |r.0| < |cookies| && cookies[|r.0|].domain.None?)
      && (forall i :: 0 <= i < |r.0| ==> cookies[i].domain.Some? && r.0[i] == Write(cookies[i], httpOnlySupported))
  {
    var n := Reached(cookies);
    if n < |cookies| {
      assert cookies[n] in cookies;
    }
  }

  /** What a sync leaves behind: the store after it, the events it sent to
      the browser, and whether it ended normally rather than with a
      NullPointerException. */
  datatype SyncResult = SyncResult(store: Store, trace: seq<Event>, completed: bool)

  /** syncCookiesToWebkit. The store's cookie list is read twice, at
      `logNow` for the log line and at the later `now` for the loop; each
      read drops the cookies expired at its moment. `httpOnlySupported`
      stands for the platform check "SDK 24 or newer". */
  function SyncCookiesToWebkit(s: Store, logNow: int, now: int, httpOnlySupported: bool): (r: SyncResult)
    requires s.index.Valid() && logNow <= now
    ensures r.store == GetCookies(s, now).0
  {
    var logged := GetCookies(s, logNow);
    var listed := GetCookies(logged.0, now);
    GetCookiesLater(s, logNow, now);
    SyncResult(listed.0, TraceOf(listed.1, httpOnlySupported), WriteAll(listed.1, httpOnlySupported).1)
  }

  /** The sync writes the cookies live at the loop's moment in list order
      and flushes once at the end exactly when every one of them has a
      domain; otherwise it stops at the first one without a domain and never
      flushes. */
  lemma SyncTrace(s: Store, logNow: int, now: int, httpOnlySupported: bool)
    requires s.index.Valid() && logNow <= now
    ensures var r := SyncCookiesToWebkit(s, logNow, now, httpOnlySupported);
      var cookies := GetCookies(s, now).1;
      && (r.completed <==> forall c :: c in cookies ==> c.domain.Some?)
      && (r.completed ==> |r.trace| == |cookies| + 1 && r.trace[|cookies|] == Flush)
      && (!r.completed ==> |r.trace| < |cookies| && cookies[|r.trace|].domain.None? && Flush !in r.trace)
      && (forall i :: 0 <= i < |r.trace| && i < |cookies| ==>
            cookies[i].domain.Some? && r.trace[i] == Write(cookies[i], httpOnlySupported))
  {
    var r := SyncCookiesToWebkit(s, logNow, now, httpOnlySupported);
    var cookies := GetCookies(s, now).1;
    assert r.trace == TraceOf(cookies, httpOnlySupported) && r.completed == WriteAll(cookies, httpOnlySupported).1 by {
      GetCookiesLater(s, logNow, now);
    }
    TraceOfSpec(cookies, httpOnlySupported);
  }

  /** The events of the loop over `cookies`, then the flush if the loop ran
      to the end. */
  function TraceOf(cookies: seq<Cookie>, httpOnlySupported: bool): seq<Event>
  {
    var writes := WriteAll(cookies, httpOnlySupported);
    if writes.1 then writes.0 + [Flush] else writes.0
  }

  lemma TraceOfSpec(cookies: seq<Cookie>, httpOnlySupported: bool)
    ensures var t := TraceOf(cookies, httpOnlySupported);
      var completed := WriteAll(cookies, httpOnlySupported).1;
      && (completed <==> forall c :: c in cookies ==> c.domain.Some?)
      && (completed ==> |t| == |cookies| + 1 && t[|cookies|] == Flush)
      && (!completed ==> |t| < |cookies| && cookies[|t|].domain.None? && Flush !in t)
      && (forall i :: 0 <= i < |t| && i < |cookies| ==>
            cookies[i].domain.Some? && t[i] == Write(cookies[i], httpOnlySupported))
  {
    var writes := WriteAll(cookies, httpOnlySupported);
    WriteAllSpec(cookies, httpOnlySupported);
    assert Flush !in writes.0 by {
      forall i | 0 <= i < |writes.0| ensures writes.0[i] != Flush {
        assert writes.0[i].SetCookie?;
      }
    }
  }

  /** After a sync that ended normally, every cookie still live in the
      store was handed to the browser: an equal cookie's event is in the
      trace, before the final flush. */
  lemma SyncWritesEveryLiveCookie(s: Store, logNow: int, now: int, httpOnlySupported: bool, k: HostKey, c: Cookie)
    requires s.index.Valid() && logNow <= now
    requires k in s.index.buckets && c in s.index.buckets[k] && !HasExpired(c, now)
    ensures var r := SyncCookiesToWebkit(s, logNow, now, httpOnlySupported);
      r.completed ==>
        exists i, d :: 0 <= i < |r.trace| - 1 && Same(c, d) && d.domain.Some? && r.trace[i] == Write(d, httpOnlySupported)
  {
    var r := SyncCookiesToWebkit(s, logNow, now, httpOnlySupported);
    var cookies := GetCookies(s, now).1;
    SyncTrace(s, logNow, now, httpOnlySupported);
    assert SameIn(c, cookies);
    var i :| 0 <= i < |cookies| && Same(cookies[i], c);
    if r.completed {
      assert cookies[i] in cookies;
      assert Same(c, cookies[i]) && r.trace[i] == Write(cookies[i], httpOnlySupported);
    }
  }

  /** Syncing again, with both reads at the moment of the first sync's
      loop, sends the same events and leaves the store as it is. */
  lemma SyncTwiceRepeats(s: Store, logNow: int, now: int, httpOnlySupported: bool)
    requires s.index.Valid() && logNow <= now
    ensures var first := SyncCookiesToWebkit(s, logNow, now, httpOnlySupported);
      first.store.index.Valid() &&
      SyncCookiesToWebkit(first.store, now, now, httpOnlySupported) == first
  {
    var after := GetCookies(s, now);
    assert GetCookies(GetCookies(s, logNow).0, now) == after by {
      GetCookiesLater(s, logNow, now);
    }
    assert GetCookies(GetCookies(after.0, now).0, now) == after by {
      GetCookiesIdempotent(s, now);
    }
  }

  /** A secure cookie for ".a.com" at "/" is set for "https://a.com/"; a
      plain one without a path is set for "http://a.comnull", the text the
      string template makes of the absent path. */
  lemma HostUrlExample(c: Cookie)
    requires c.domain == Some(".a.com")
    ensures c.secure && c.path == Some("/") ==> HostUrl(c) == Some("https://a.com/")
    ensures !c.secure && c.path.None? ==> HostUrl(c) == Some("http://a.comnull")
  {
    assert AdjustedDomain(".a.com") == "a.com" by {
      assert ".a.com"[1..] == "a.com";
    }
    if c.secure && c.path == Some("/") {
      assert Scheme(c) + "://" + "a.com" + "/" == "https://a.com/";
    }
    if !c.secure && c.path.None? {
      assert Scheme(c) + "://" + "a.com" + "null" == "http://a.comnull";
    }
  }
}

=== FILE: text.dfy ===
/** String helpers used by the cookie model: ASCII case folding (Java's
    equalsIgnoreCase), character search (String.indexOf) and the decimal
    rendering of a Long inside a Kotlin string template, with its parser. */
module Text {

  import opened Wrappers

  /** How a Kotlin string template prints a nullable string: an absent one
      becomes the text "null". */
  function NullText(o: Option<string>): (r: string)
    ensures o.Some? ==> r == o.value
    ensures o.None? ==> r == "null"
  {
    match o
    case Some(t) => t
    case None => "null"
  }

  function LowerChar(c: char): char
  {
    if 'A' <= c <= 'Z' then (c as int - 'A' as int + 'a' as int) as char else c
  }

  /** The string with every ASCII capital replaced by its small letter. */
  function Lower(s: string): (r: string)
    ensures |r| == |s|
  {
    seq(|s|, i requires 0 <= i < |s| => LowerChar(s[i]))
  }

  /** Java's String.equalsIgnoreCase, restricted to ASCII case folding. */
  predicate EqualsIgnoreCase(a: string, b: string)
  {
    Lower(a) == Lower(b)
  }

  function LowerOpt(s: Option<string>): Option<string>
  {
    match s
    case None => None
    case Some(v) => Some(Lower(v))
  }

  lemma LowerSuffix(s: string, i: nat)
    requires i <= |s|
    ensures Lower(s[i..]) == Lower(s)[i..]
  {
  }

  lemma LowerIdempotent(s: string)
    ensures Lower(Lower(s)) == Lower(s)
  {
  }

  predicate StartsWithDot(s: string)
  {
    |s| > 0 && s[0] == '.'
  }

  /** Java's s.indexOf(ch, from): the first position at or after `from`
      holding `ch`, or -1 when there is none. */
  function IndexOf(s: string, ch: char, from: nat): (r: int)
    ensures r == -1 || from <= r < |s|
    ensures r == -1 <==> forall i :: from <= i < |s| ==> s[i] != ch
    ensures r != -1 ==> s[r] == ch && forall i :: from <= i < r ==> s[i] != ch
    decreases |s| - from
  {
    if from >= |s| then -1
    else if s[from] == ch then from
    else IndexOf(s, ch, from + 1)
  }

  /** Where `ch` first occurs in `a + b` when it does not occur in `a`. */
  lemma IndexOfAfterPrefix(a: string, b: string, ch: char)
    requires ch !in a
    ensures IndexOf(a + b, ch, 0) == if IndexOf(b, ch, 0) == -1 then -1 else |a| + IndexOf(b, ch, 0)
  {
    var s := a + b;
    var k := IndexOf(b, ch, 0);
    var r := IndexOf(s, ch, 0);
    if k == -1 {
      forall i | 0 <= i < |s| ensures s[i] != ch {
        if i >= |a| { assert s[i] == b[i - |a|]; } else { assert s[i] == a[i]; }
      }
    } else {
      assert s[|a| + k] == ch;
      forall i | 0 <= i < |a| + k ensures s[i] != ch {
        if i >= |a| { assert s[i] == b[i - |a|]; } else { assert s[i] == a[i]; }
      }
    }
  }

  /** Searching `a + b` for `ch`, where `a` lacks it and `b` is empty or
      starts with it, splits the string back into `a` and `b`. */
  lemma SplitAtFirst(a: string, b: string, ch: char)
    requires ch !in a
    requires b == [] || b[0] == ch
    ensures b == [] ==> IndexOf(a + b, ch, 0) == -1 && a + b == a
    ensures b != [] ==> IndexOf(a + b, ch, 0) == |a| && (a + b)[..|a|] == a && (a + b)[|a|..] == b
  {
    IndexOfAfterPrefix(a, b, ch);
    if b == [] {
      assert a + b == a;
    } else {
      assert IndexOf(b, ch, 0) == 0;
      assert (a + b)[..|a|] == a;
      assert (a + b)[|a|..] == b;
    }
  }

  predicate IsDigit(c: char)
  {
    '0' <= c <= '9'
  }

  predicate AllDigits(s: string)
  {
    forall i :: 0 <= i < |s| ==> IsDigit(s[i])
  }

  function DigitChar(d: nat): char
    requires d < 10
  {
    (d + '0' as int) as char
  }

  /** The decimal digits of `n`, most significant first, without leading zeros. */
  function NatToString(n: nat): (r: string)
    ensures |r| >= 1 && AllDigits(r)
    ensures n > 0 ==> r[0] != '0'
    decreases n
  {
    if n < 10 then [DigitChar(n)] else NatToString(n / 10) + [DigitChar(n % 10)]
  }

  /** Long.toString, as a Kotlin string template renders a Long. */
  function LongToString(n: int): (r: string)
    ensures |r| >= 1
    ensures n < 0 <==> r[0] == '-'
    ensures ';' !in r
  {
    if n < 0 then "-" + NatToString(-n) else NatToString(n)
  }

  function ParseNat(s: string): nat
    requires AllDigits(s)
  {
    if |s| == 0 then 0 else ParseNat(s[..|s| - 1]) * 10 + (s[|s| - 1] as int - '0' as int)
  }

  /** Reads back what LongToString writes: an optional minus sign and at
      least one decimal digit. */
  function ParseLong(s: string): Option<int>
  {
    if |s| > 1 && s[0] == '-' && AllDigits(s[1..]) then Some(0 - ParseNat(s[1..]) as int)
    else if |s| > 0 && AllDigits(s) then Some(ParseNat(s) as int)
    else None
  }

  lemma {:induction false} ParseNatToString(n: nat)
    ensures ParseNat(NatToString(n)) == n
    decreases n
  {
    if n >= 10 {
      var p := NatToString(n / 10);
      var s := p + [DigitChar(n % 10)];
      assert s[..|s| - 1] == p;
      ParseNatToString(n / 10);
    }
  }

  /** Every Long's decimal rendering reads back as that Long. */
  lemma LongToStringRoundTrip(n: int)
    ensures ParseLong(LongToString(n)) == Some(n)
  {
    var s := LongToString(n);
    if n < 0 {
      assert s[1..] == NatToString(-n);
      assert |s| > 1 && s[0] == '-' && AllDigits(s[1..]);
      ParseNatToString(-n);
    } else {
      assert s == NatToString(n) && s[0] != '-';
      ParseNatToString(n);
    }
  }
}

=== FILE: wrappers.dfy ===
/** A value that may be absent: the model's stand-in for a nullable Kotlin
    or Java reference. */
module Wrappers {

  datatype Option<+T> = None | Some(value: T)
}
